=== FILE: README.md ===
# ssh-manager core in Dafny

A functional model of the two pieces of sequential logic in ssh-manager, a
terminal catalogue of SSH connection profiles.

- **The configuration store** (`src/config.rs`). Servers are kept in
  `<config dir>/ssh-manager/servers.json`, which can take three shapes:
  - the current list of `Server` records;
  - a legacy list of records without authentication or group;
  - an envelope holding the list encrypted with AES-256-GCM under a key
    derived by PBKDF2-HMAC-SHA-256 from a master password.

  `Config::load` tries the three shapes in that order. `Config::save` always
  writes the encrypted shape, asking for the master password twice if none is
  held. `add_server` and `remove_server` edit the in-memory list.
  `import_ssh_config` appends one server per `Host` alias of `~/.ssh/config`
  that is not yet in the list.
- **The TUI application state** (`src/app.rs`). This covers the server list
  with its wrap-around selection, the add-server popup, the eight-field form
  cycle, and the conversion of the form into a `Server`.

Modules, one per file:

| module | file | models |
|---|---|---|
| `Results` | results.dfy | `Option` and `Result` with failure propagation |
| `RustText` | rusttext.dfy | Rust's `char::is_whitespace`, `trim`, `starts_with`, `trim_start_matches`, `lines` and `u16` parsing |
| `Json` | json.dfy | a JSON value after tokenising, and serde's field rules for derived structs (unknown keys ignored, a repeated key rejected) |
| `Profiles` | profiles.dfy | `AuthType`, `Server`, `LegacyServer`, `EncryptedConfig`, the default group, and the serde decoders and encoders for each shape |
| `Store` | store.dfy | `Config`, `Config::{new, load, save, add_server, remove_server}`, `derive_key` |
| `SshImport` | sshimport.dfy | `Config::import_ssh_config` |
| `AppState` | appstate.dfy | `InputMode`, `Focus`, `FormFocus::next`, and `App::{new, next, previous, open_add_server_popup, close_popup, next_form_field, save_server}` |

### External code and the environment

The store's own decisions are modelled. Everything it only calls is a
parameter.

- **Foreign functions.** JSON text printing and parsing, UTF-8, base64,
  PBKDF2 and AES-256-GCM are function-valued fields of
  `Store.Collaborators`.
- **Assumptions about them.** These are two ghost predicates, used only as
  lemma hypotheses:
  - `Faithful` says every encoding reads back, and that decryption with the
    sealing key and nonce recovers the plaintext.
  - `RejectsForeignKey` says a ciphertext does not open under a different
    key.
- **Wrong password.** Key-derivation injectivity is not assumed, since a
  32-byte key space makes it false. Instead the wrong-password lemmas take
  as a hypothesis that the two derived keys differ.
- **Environment inputs.** These are explicit inputs:
  - the configuration and home directories;
  - the state of each file;
  - what each password prompt returns;
  - whether creating the directory and writing the file succeed;
  - the random salt and nonce;
  - the local user name;
  - the ssh-config query (`alias -> host name, user, port, identity files`).
- **JSON.** The JSON document is modelled as a value. The decoders that turn
  it into servers are written out as serde's derive produces them, so these
  are proved rather than assumed:
  - the group defaults when absent;
  - a current record is also a valid legacy record;
  - encoding then decoding round-trips.

### Where the model departs from or clarifies the code

- **Decrypted payload.** The decrypted payload is read as the current shape
  only (src/config.rs:119). An encrypted legacy list is rejected with a JSON
  error; it is not migrated.
- **Reading the password.** The file is checked for the envelope shape before
  the password is asked for. A file in none of the three shapes therefore
  fails without a prompt.
- **Removing a server.** `remove_server` takes a position, not a stable
  identity. Out of range it does nothing.
- **Connecting.** The repository has no relay or transfer code of its own:
  connecting runs the external `ssh` binary (src/main.rs:32-36).

## Model

| member | source | states |
|---|---|---|
| RustText.Trim | src/config.rs:196 | a trimmed line neither begins nor ends with a Unicode white-space character; its content is stated by `RustText.TrimSlice` |
| RustText.TrimSlice | src/config.rs:196 | trimming gives the contiguous slice of the input between a leading and a trailing run of white space |
| RustText.TrimOfPadded | src/config.rs:196 | white space padding either side of a string with non-blank ends is exactly what trimming removes |
| RustText.TrimStartDropsBlanks | src/config.rs:196 | leading white space before a non-blank character is dropped and nothing more |
| RustText.TrimEndDropsBlanks | src/config.rs:196 | trailing white space after a non-blank character is dropped and nothing more |
| RustText.TrimStartMatchesSuffix | src/config.rs:198 | stripping every leading `Host ` leaves a suffix of the line that no longer starts with `Host ` |
| RustText.Lines | src/config.rs:195 | no line produced contains a line feed; empty text has no lines and non-empty text has at least one |
| RustText.LinesSingle | src/config.rs:195 | text without a line feed is exactly one line, itself |
| RustText.LinesCons | src/config.rs:195 | a line ended by `\n` comes first, whole, followed by the lines of the rest |
| RustText.LinesConsCrLf | src/config.rs:195 | a line ended by `\r\n` comes first without the `\r`, followed by the lines of the rest |
| RustText.ParseU16 | src/app.rs:151 | a port parses only from a non-empty run of ASCII digits, optionally led by one `+`; a lone `+` is rejected, since accepted text ends in a digit |
| RustText.ParseU16RoundTrip | src/app.rs:151 | every `u16` written in decimal, with or without a leading `+`, parses back to itself |
| RustText.ParseU16RejectsOverflow | src/app.rs:151 | a decimal number of 65536 or more is rejected, not wrapped |
| Json.Lookup | src/config.rs:28-37 | a field is missing exactly when no key matches, a duplicate exactly when several do, and a present value is one of the object's members |
| Json.LookupDistinct | src/config.rs:28-37 | in an object without repeated keys every member is found under its own key |
| Json.RequiredString | src/config.rs:30-32 | a string field is accepted exactly when the key holds a single string |
| Json.RequiredU16 | src/config.rs:33 | a port field is accepted exactly when the key holds an integer from 0 to 65535 |
| Profiles.DecodeAuthType | src/config.rs:21-26 | accepts exactly `"Agent"`, `{"Agent": null}`, `{"Password": s}` and `{"Key": s}`, each giving the matching variant |
| Profiles.EncodeAuthType | src/config.rs:21-26 | serde's external tagging: `"Agent"` for the unit variant, a one-key object for the others; `Profiles.AuthTypeRoundTrip` states that it reads back |
| Profiles.AuthTypeRoundTrip | src/config.rs:21-26 | every authentication method serialized reads back as itself |
| Profiles.GroupField | src/config.rs:35-41 | an absent group is `"General"`; a present group must be a string; a repeated group is an error |
| Profiles.DecodeServer | src/config.rs:28-37 | the derived `Server` decoder; what it accepts is stated by `Profiles.DecodedServerFields` and, conversely, `Profiles.DecodeFoundFields` and `Profiles.MissingGroupDecodes` |
| Profiles.DecodedServerFields | src/config.rs:28-37 | a decoded server's name, user, host, port, authentication and group are the values found under their keys |
| Profiles.MissingGroupDefaults | src/config.rs:35-41 | a server record with no `group` key is put in the group `"General"` |
| Profiles.MissingGroupDecodes | src/config.rs:28-41 | a record with the five required fields and no `group` key is accepted, with those fields and the group `"General"` |
| Profiles.DecodeServers | src/config.rs:81 | `Vec<Server>` read from a document: an array decoded by `Profiles.DecodeList`; `Profiles.ServersRoundTrip` states that written lists read back |
| Profiles.DecodeList | src/config.rs:81 | a list decodes when every element does, keeping length and order, and fails exactly when some element fails |
| Profiles.EncodeServer | src/config.rs:28-37 | the derived `Server` encoder; `Profiles.ServerMembersFound` states each field sits under its own key and `Profiles.ServerRoundTrip` that it reads back |
| Profiles.ServerMembersFound | src/config.rs:28-37 | every field of a serialized server is found under its own key |
| Profiles.DecodeFoundFields | src/config.rs:28-37 | an object holding a server's fields under their keys decodes to that server |
| Profiles.EncodeServers | src/config.rs:155 | the serialized list has one element per server, in order |
| Profiles.ServerRoundTrip | src/config.rs:28-37 | a serialized server reads back as the same server |
| Profiles.ServersRoundTrip | src/config.rs:155 | a serialized server list reads back as the same list |
| Profiles.ServerListRoundTrip | src/config.rs:155 | element-wise serialized servers decode to exactly those servers |
| Profiles.DecodeLegacyServer | src/config.rs:43-49 | the derived `LegacyServer` decoder; `Profiles.DecodedLegacyFields` and `Profiles.LegacyFieldsDecode` state what it accepts, in both directions |
| Profiles.DecodedLegacyFields | src/config.rs:43-49 | a legacy record's fields are the values under `name`, `user`, `host` and `port` |
| Profiles.LegacyFieldsDecode | src/config.rs:43-49 | an object with strings under `name`, `user` and `host` and an in-range integer under `port` decodes to exactly that legacy record, whatever else it holds |
| Profiles.DecodeLegacy | src/config.rs:87 | `Vec<LegacyServer>` read from a document: an array decoded element by element through `Profiles.DecodeList`, whose records `Profiles.DecodedLegacyFields` and `Profiles.LegacyFieldsDecode` characterise in both directions |
| Profiles.Upgrade | src/config.rs:89-96 | one legacy record in the current shape; `Profiles.Migrate` states what it keeps and what it sets |
| Profiles.Migrate | src/config.rs:89-96 | migration keeps length and order, keeps each name, user, host and port, and sets `Agent` and `"General"` |
| Profiles.CurrentIsAlsoLegacy | src/config.rs:80-98 | every current-shape file also parses as the legacy shape, with the same name, user, host and port per record |
| Profiles.CurrentListIsAlsoLegacy | src/config.rs:80-98 | items that each read as a current server also read, together, as a legacy list with the same name, user, host and port per item |
| Profiles.ServerIsAlsoLegacy | src/config.rs:28-49 | one current-shape record also reads as a legacy record with the same name, user, host and port |
| Profiles.LegacyRecordIsNotCurrent | src/config.rs:34 | a record without `auth_type` never parses as the current shape |
| Profiles.EncryptedIsNeitherList | src/config.rs:100-103 | an envelope parses as neither server list |
| Profiles.DecodeEncrypted | src/config.rs:51-56 | an envelope's fields are the strings under `salt`, `nonce` and `ciphertext`; `Profiles.EncryptedFieldsDecode` gives the converse |
| Profiles.EncryptedFieldsDecode | src/config.rs:51-56 | an object with strings under `salt`, `nonce` and `ciphertext`, in any order and beside any other keys, decodes to exactly that envelope |
| Profiles.EncodeEncrypted | src/config.rs:159-165 | the envelope as an object of three strings; `Profiles.EncryptedRoundTrip` states that it reads back |
| Profiles.EncryptedRoundTrip | src/config.rs:159-165 | a serialized envelope reads back as itself |
| Store.ConfigPath | src/config.rs:240-245 | the file `<config dir>/ssh-manager/servers.json`; `Store.LoadUnrecognised` states that format errors name it |
| Store.DeriveKey | src/config.rs:233-238 | PBKDF2-HMAC-SHA-256 of the password's UTF-8 bytes and the salt, 100 000 iterations, 32 bytes; `Store.UnlockEnvelope` relies on the same password and salt giving the same key |
| Store.Load | src/config.rs:71-125 | no config directory fails with `NoConfigDir` and an unreadable file with an I/O error, never as an empty store; a password in the result is the prompt's reply; a format error names `<config dir>/ssh-manager/servers.json` |
| Store.LoadEncrypted | src/config.rs:100-124 | any file in the encrypted shape only, whatever its key order or extra keys, loads exactly as the unlock of its envelope with the prompt's reply |
| Store.LoadPromptFails | src/config.rs:104-106 | an encrypted file whose password prompt fails does not load and yields the I/O error |
| Store.Unlock | src/config.rs:105-124 | a successful decryption holds the entered password |
| Store.Save | src/config.rs:127-168 | the servers never change; no config directory or a failed directory creation fails first, changing nothing; mismatched prompts fail; the call succeeds exactly when the directory, the write and the encryption succeed and a password is held or confirmed, and then it writes the pretty-printed envelope of the servers under that password, which stays held |
| Store.Seal | src/config.rs:144-167 | encryption never changes the configuration; a failed encryption is `EncryptionFailed`, a failed write `IoFailure`, and otherwise the pretty-printed envelope of the servers is written |
| Store.Envelope | src/config.rs:145-163 | the envelope records the base64 of the salt and nonce it was sealed with |
| Store.AddServer | src/config.rs:170-172 | the list grows by one, the new server is last, earlier servers and the password are unchanged |
| Store.RemoveServer | src/config.rs:174-178 | in range, exactly element `i` goes and the rest keep their order; out of range, nothing changes |
| Store.LoadWithoutFile | src/config.rs:74-76 | a missing file loads as an empty list with no password, not an error |
| Store.LoadCurrent | src/config.rs:80-84 | a current-shape file loads as exactly those servers, with no password, whatever the prompt would return |
| Store.LoadPrefersCurrent | src/config.rs:80-98 | a current-shape file, though also legacy-shaped, keeps the authentication and groups it records |
| Store.LoadLegacy | src/config.rs:86-98 | a legacy file loads as its records in order, each with `Agent` and `"General"`, and no password |
| Store.LoadUnrecognised | src/config.rs:100-103 | text in none of the three shapes fails with an error naming the file's path |
| Store.UnlockOnlyCurrent | src/config.rs:108-124 | unlocking succeeds only through base64, a 12-byte nonce, successful decryption, UTF-8 and a current-shape parse, which gives the servers |
| Store.SaveMismatch | src/config.rs:133-140 | with no held password, two different entries fail, write nothing and leave the password unset |
| Store.SaveAdoptsPassword | src/config.rs:141 | two matching entries become the held password |
| Store.SaveHeldPasswordIgnoresPrompts | src/config.rs:133-144 | with a password held, what the prompts would return makes no difference |
| Store.LoadOfEnvelope | src/config.rs:100-106 | a written envelope is recognised as the encrypted shape and unlocked with the prompt's reply |
| Store.UnlockEnvelope | src/config.rs:108-124 | an envelope unlocks under its own password to exactly the servers sealed in it |
| Store.UnlockEnvelopeWrongPassword | src/config.rs:112-117 | an envelope fails to unlock under a password with a different derived key |
| Store.SaveThenLoad | src/config.rs:127-168 | loading what a successful save wrote, with the password it used, gives back every server in order and that password |
| Store.LoadWithWrongPassword | src/config.rs:116-117 | loading a saved file with a password whose derived key differs fails with the authentication error |
| Store.AddThenRemove | src/config.rs:170-178 | removing the server just added restores the configuration |
| Store.RemoveServerMultiset | src/config.rs:174-178 | removal takes exactly the indexed server out of the multiset of servers |
| SshImport.HostAlias | src/config.rs:196-199 | an alias is taken only from a trimmed line starting with `Host `, and never contains `*`; `SshImport.OnePatternAlias` and `SshImport.PaddedHostAlias` give the converse |
| SshImport.HostAliasNonEmpty | src/config.rs:196-198 | an alias taken from a line is never empty |
| SshImport.OnePatternAlias | src/config.rs:196-199 | a `Host` line naming one blank-free pattern without `*` declares exactly that pattern |
| SshImport.PaddedHostAlias | src/config.rs:196-199 | the same line indented or followed by white space declares the same pattern |
| SshImport.SeveralPatternsOneAlias | src/config.rs:196-199 | a `Host` line listing two wildcard-free patterns gives one alias made of both, so a single server is imported for them |
| SshImport.LowerCaseHostIgnored | src/config.rs:197 | a line starting with lower-case `host ` is never imported, whatever follows |
| SshImport.Identity | src/config.rs:207 | the first identity file, if any; `SshImport.Imported` states the authentication it selects |
| SshImport.Imported | src/config.rs:201-223 | an imported server is named after its alias and placed in `"Imported"`; host, user and port are the resolved values when present and otherwise the alias, the local user and 22; the first identity file gives `Key` with that path, otherwise `Agent` |
| SshImport.ImportSshConfig | src/config.rs:180-230 | failures change nothing; no home directory is an error and no file imports nothing; a failed open or read is an I/O error and a syntax error in the ssh config is `SshConfigSyntax`; the count is the number appended; existing servers and the password stay; each added server comes from a declared alias and repeats no earlier name; every declared alias is present afterwards |
| SshImport.ImportOneHost | src/config.rs:180-230 | importing a file of one `Host w` line, with no server named `w`, appends the import of `w` and reports 1 |
| SshImport.ImportAlias | src/config.rs:210-225 | one line appends a server exactly when it declares an alias not yet in the list, keeps the list before it, and counts what it appends |
| SshImport.ImportLines | src/config.rs:191-227 | the loop only appends, and its counter grows by exactly the number of servers appended |
| SshImport.ImportAliasAdded | src/config.rs:210-225 | a line only appends the import of its own alias |
| SshImport.ImportAliasFresh | src/config.rs:210-211 | a line never appends a name already in the list |
| SshImport.ImportAliasCovers | src/config.rs:210-225 | after a line, its alias is in the list |
| SshImport.ImportLinesAdded | src/config.rs:195-227 | every server the loop appends is the import of a declared alias |
| SshImport.ImportLinesFresh | src/config.rs:195-227 | the loop never creates a repeated name after the starting point |
| SshImport.ImportLinesCovers | src/config.rs:195-227 | after the loop every declared alias names some server |
| AppState.FormFocus.Next | src/app.rs:28-39 | the fixed field order; `AppState.NextIsSuccessor` states it |
| AppState.NextIsSuccessor | src/app.rs:28-39 | the next field is one place further round the eight-field cycle |
| AppState.NextInjective | src/app.rs:28-39 | no two fields have the same successor |
| AppState.AdvancePosition | src/app.rs:28-39 | `n` steps move `n` places round the cycle |
| AppState.FormCyclePeriod | src/app.rs:28-39 | eight steps return to the starting field and fewer never do |
| AppState.New | src/app.rs:63-87 | index 0 is selected exactly when the list is non-empty; the popup is hidden, `Normal` mode with list focus, index 0, no connection |
| AppState.SelectNext | src/app.rs:91-105 | an empty list is unchanged; otherwise only the selection changes, to the in-range successor modulo the length, or to 0 when none or out of range |
| AppState.SelectPrevious | src/app.rs:107-121 | an empty list is unchanged; otherwise only the selection changes, to the predecessor modulo the length, 0 from none, one less from beyond the end |
| AppState.PreviousUndoesNext | src/app.rs:91-121 | for an in-range selection, up after down and down after up restore it |
| AppState.SelectNextTimesMoves | src/app.rs:91-105 | `n` presses of down move an in-range selection `n` places modulo the length |
| AppState.SelectNextFullCycle | src/app.rs:91-105 | pressing down once per server returns to the starting selection |
| AppState.OpenAddServerPopup | src/app.rs:123-136 | the popup shows in `Editing` mode on the group field, with group `"General"`, port `"22"`, index 0, other inputs empty, list and selection unchanged |
| AppState.ClosePopup | src/app.rs:138-142 | the popup hides, `Normal` mode with list focus, nothing else changes |
| AppState.ClosePopupIdempotent | src/app.rs:138-142 | closing twice is closing once |
| AppState.NextFormField | src/app.rs:144-148 | with list focus nothing changes; in the form only the focus advances to the next field |
| AppState.NextFormFieldCycle | src/app.rs:144-148 | eight presses of tab in the form return to the same field |
| AppState.PortOrDefault | src/app.rs:151 | the port is the parsed `u16` when the text parses and 22 otherwise |
| AppState.AuthFromIndex | src/app.rs:153-158 | index 0 gives a password, 1 a key path, any other index the agent, carrying the typed text |
| AppState.SaveServer | src/app.rs:150-171 | exactly one server is appended, built from each input's first line, and the popup closes; everything else, the typed inputs and the selection included, stays as it was |
| AppState.TransitionsKeepSelection | src/app.rs:91-171 | every transition keeps the selection inside the list |
| AppState.SubmitUneditedForm | src/app.rs:123-171 | submitting a freshly opened form appends a server in `"General"` on port 22 with an empty password |
| AppState.OutOfRangePortFallsBack | src/app.rs:151 | a typed port above 65535 saves as 22 |
| AppState.TypedPortIsKept | src/app.rs:151 | any `u16` typed in decimal is the port saved |

## Left out

- **Cryptography and data formats.** JSON text, base64, UTF-8, PBKDF2 and
  AES-256-GCM are foreign code, so they are abstract functions. Their
  properties are hypotheses (`Faithful`, `RejectsForeignKey`), not proofs.
  `derive_key`'s `expect` cannot fire for a 32-byte output, so it is not
  modelled.
- **Serde's array form of a struct.** Serde also accepts a struct written as
  a JSON array of its fields in order. The decoders accept objects only.
- **Messages on the terminal.** The status messages printed by `load` and
  `save` are output only.
- **The randomness source.** Drawing the salt and nonce from the operating
  system's generator is replaced by explicit inputs.
- **The file system, directories and prompts.** They are replaced by their
  outcomes as inputs. Import reads `~/.ssh/config` twice: once to parse it and
  once to read its lines. The model takes the parsed query and the text as
  two separate inputs of `Parsed` and assumes no relation between them.
- **The ssh-config parser.** It is an input query. A syntax error is
  represented by the `Unparsable` file state.
- **Non-UTF-8 identity paths.** `to_string_lossy` on an identity file path is
  not modelled, because paths are strings here.
- **The UI layers.** Rendering, menus, the main loop and launching the
  external `ssh` process (`src/ui_render.rs`, `src/ui.rs`, `src/main.rs`) are
  I/O and are not modelled. So are typing into text areas, setting
  `should_quit` and `should_connect`, and changing `auth_type_idx`.
- **`App::on_tick`.** It does nothing.
- **`ListState`.** Only its selected index is modelled, not its scroll
  offset.
- Store.Unlock: `Nonce::from_slice` panics when the decoded nonce is not 12
  bytes long; the model returns the error `MalformedNonce` there instead of
  aborting, so it does not promise the abort.
- **Integer widths.** `usize` indices and counts are unbounded naturals.
  They cannot overflow for lists that fit in memory.

=== FILE: appstate.dfy ===
/**
  The terminal UI's application state: the server list with its selection,
  the add-server popup and its form, and the transitions the key handlers
  call. Text areas are modelled by their lines; rendering is not modelled.
 */
module AppState {
  import opened Results
  import opened RustText
  import Profiles

  datatype InputMode = Normal | Editing

  /** The fields of the add-server form, in tab order. */
  datatype FormFocus = Group | Name | User | Host | Port | AuthType | PasswordOrKey | Submit {

    /** The field after this one; `Submit` wraps round to `Group`. */
    function Next(): FormFocus {
      match this
      case Group => Name
      case Name => User
      case User => Host
      case Host => Port
      case Port => AuthType
      case AuthType => PasswordOrKey
      case PasswordOrKey => Submit
      case Submit => Group
    }

    /** The field's place in tab order, counted from `Group` = 0. */
    function Position(): (p: nat)
      ensures p < FieldCount
    {
      match this
      case Group => 0
      case Name => 1
      case User => 2
      case Host => 3
      case Port => 4
      case AuthType => 5
      case PasswordOrKey => 6
      case Submit => 7
    }
  }

  const FieldCount: nat := 8

  datatype Focus = ServerList | Form(field: FormFocus)

  /** A text area always holds at least one line. */
  type TextArea = lines: seq<string> | |lines| > 0 witness [""]

  /** `TextArea::default()`: a single empty line. */
  const Blank: TextArea := [""]

  datatype App = App(
    servers: seq<Profiles.Server>,
    /** `ListState::selected`. */
    selected: Option<nat>,
    showPopup: bool,
    inputMode: InputMode,
    focus: Focus,
    groupInput: TextArea,
    nameInput: TextArea,
    userInput: TextArea,
    hostInput: TextArea,
    portInput: TextArea,
    authTypeIdx: nat,
    passwordKeyInput: TextArea,
    shouldQuit: bool,
    /** Index of the server to connect to. */
    shouldConnect: Option<nat>)

  /** The selection, when there is one, points into the list. */
  predicate SelectionInRange(a: App) {
    a.selected.None? || a.selected.value < |a.servers|
  }

  // ---------------------------------------------------------------------------
  // Form focus cycle

  /** `n` presses of the tab key. */
  function Advance(f: FormFocus, n: nat): FormFocus {
    if n == 0 then f else Advance(f, n - 1).Next()
  }

  /** Advancing moves one place round the eight-field cycle. */
  lemma NextIsSuccessor(f: FormFocus)
    ensures f.Next().Position() == (f.Position() + 1) % FieldCount
  {
  }

  /** No two fields share a successor, so `Next` is a bijection of the fields. */
  lemma NextInjective(f: FormFocus, g: FormFocus)
    requires f.Next() == g.Next()
    ensures f == g
  {
  }

  /** `n` presses move `n` places round the cycle. */
  lemma {:induction false} AdvancePosition(f: FormFocus, n: nat)
    ensures Advance(f, n).Position() == (f.Position() + n) % FieldCount
  {
    if n > 0 {
      AdvancePosition(f, n - 1);
      NextIsSuccessor(Advance(f, n - 1));
    }
  }

  /** Two fields at the same place in tab order are the same field. */
  lemma PositionInjective(f: FormFocus, g: FormFocus)
    requires f.Position() == g.Position()
    ensures f == g
  {
  }

  /** The cycle has period exactly eight: eight presses come back to the start
      and fewer never do. */
  lemma FormCyclePeriod(f: FormFocus, n: nat)
    ensures Advance(f, FieldCount) == f
    ensures 0 < n < FieldCount ==> Advance(f, n) != f
  {
    AdvancePosition(f, FieldCount);
    PositionInjective(Advance(f, FieldCount), f);
    AdvancePosition(f, n);
  }

  // ---------------------------------------------------------------------------
  // App transitions

  /** `App::new`. */
  function New(servers: seq<Profiles.Server>): (a: App)
    ensures a.servers == servers
    ensures a.selected.Some? <==> |servers| > 0
    ensures a.selected.Some? ==> a.selected.value == 0
    ensures !a.showPopup && a.inputMode == Normal && a.focus == ServerList
    ensures a.authTypeIdx == 0 && a.shouldConnect.None? && !a.shouldQuit
    ensures SelectionInRange(a)
  {
    App(servers, if |servers| > 0 then Some(0) else None, false, Normal, ServerList,
        Blank, Blank, Blank, Blank, Blank, 0, Blank, false, None)
  }

  /** `App::next`: move the selection down, wrapping from the last server to
      the first. */
  function SelectNext(a: App): (r: App)
    ensures |a.servers| == 0 ==> r == a
    ensures |a.servers| > 0 ==>
              && r == a.(selected := r.selected)
              && r.selected.Some? && r.selected.value < |a.servers|
    ensures |a.servers| > 0 && a.selected.Some? && a.selected.value < |a.servers| ==>
              r.selected == Some((a.selected.value + 1) % |a.servers|)
    ensures |a.servers| > 0 && !(a.selected.Some? && a.selected.value < |a.servers|) ==>
              r.selected == Some(0)
  {
    if |a.servers| == 0 then a
    else
      var i := match a.selected
        case Some(i) => if i >= |a.servers| - 1 then 0 else i + 1
        case None => 0;
      a.(selected := Some(i))
  }

  /** `App::previous`: move the selection up, wrapping from the first server
      to the last. An index beyond the list just decreases. */
  function SelectPrevious(a: App): (r: App)
    ensures |a.servers| == 0 ==> r == a
    ensures |a.servers| > 0 ==> r == a.(selected := r.selected) && r.selected.Some?
    ensures |a.servers| > 0 && a.selected.Some? && a.selected.value < |a.servers| ==>
              r.selected == Some((a.selected.value + |a.servers| - 1) % |a.servers|)
    ensures |a.servers| > 0 && a.selected.None? ==> r.selected == Some(0)
    ensures |a.servers| > 0 && a.selected.Some? && a.selected.value >= |a.servers| ==>
              r.selected == Some(a.selected.value - 1)
  {
    if |a.servers| == 0 then a
    else
      var i := match a.selected
        case Some(i) => if i == 0 then |a.servers| - 1 else i - 1
        case None => 0;
      a.(selected := Some(i))
  }

  /** `App::open_add_server_popup`: show the form with its defaults. */
  function OpenAddServerPopup(a: App): (r: App)
    ensures r.showPopup && r.inputMode == Editing && r.focus == Form(Group)
    ensures r.groupInput == ["General"] && r.portInput == ["22"]
    ensures r.nameInput == [""] && r.userInput == [""] && r.hostInput == [""] && r.passwordKeyInput == [""]
    ensures r.authTypeIdx == 0
    ensures r.servers == a.servers && r.selected == a.selected
    ensures r.shouldQuit == a.shouldQuit && r.shouldConnect == a.shouldConnect
  {
    a.(showPopup := true, inputMode := Editing, focus := Form(Group),
       groupInput := ["General"], nameInput := Blank, userInput := Blank, hostInput := Blank,
       portInput := ["22"], passwordKeyInput := Blank, authTypeIdx := 0)
  }

  /** `App::close_popup`: back to the server list; form contents are kept. */
  function ClosePopup(a: App): (r: App)
    ensures !r.showPopup && r.inputMode == Normal && r.focus == ServerList
    ensures r == a.(showPopup := false, inputMode := Normal, focus := ServerList)
  {
    a.(showPopup := false, inputMode := Normal, focus := ServerList)
  }

  /** `App::next_form_field`: tab to the next field while the form has focus. */
  function NextFormField(a: App): (r: App)
    ensures a.focus.ServerList? ==> r == a
    ensures a.focus.Form? ==> r == a.(focus := Form(a.focus.field.Next()))
  {
    match a.focus
    case Form(current) => a.(focus := Form(current.Next()))
    case ServerList => a
  }

  /** The port typed into the form, or 22 when it does not parse as a `u16`. */
  function PortOrDefault(text: string): (p: uint16)
    ensures ParseU16(text).Some? ==> p == ParseU16(text).value
    ensures ParseU16(text).None? ==> p == 22
  {
    ParseU16(text).GetOr(22)
  }

  /** The authentication chosen in the form: 0 is a password, 1 a key file,
      anything else the agent. */
  function AuthFromIndex(idx: nat, secret: string): (auth: Profiles.AuthType)
    ensures auth.Password? <==> idx == 0
    ensures auth.Key? <==> idx == 1
    ensures auth.Agent? <==> idx >= 2
    ensures auth.Password? ==> auth.secret == secret
    ensures auth.Key? ==> auth.path == secret
  {
    match idx
    case 0 => Profiles.Password(secret)
    case 1 => Profiles.Key(secret)
    case _ => Profiles.Agent
  }

  /** `App::save_server`: append the server the form describes (first line of
      each input) and close the popup. */
  function SaveServer(a: App): (r: App)
    ensures |r.servers| == |a.servers| + 1
    ensures r.servers[..|a.servers|] == a.servers
    ensures r.servers[|a.servers|] == Profiles.Server(
              a.nameInput[0], a.userInput[0], a.hostInput[0],
              PortOrDefault(a.portInput[0]),
              AuthFromIndex(a.authTypeIdx, a.passwordKeyInput[0]),
              a.groupInput[0])
    ensures !r.showPopup && r.inputMode == Normal && r.focus == ServerList
    ensures r.selected == a.selected && r.authTypeIdx == a.authTypeIdx
    ensures r.shouldQuit == a.shouldQuit && r.shouldConnect == a.shouldConnect
    // nothing but the list and the popup state changes; the inputs stay as typed
    ensures r == ClosePopup(a.(servers := r.servers))
  {
    var port := PortOrDefault(a.portInput[0]);
    var auth := AuthFromIndex(a.authTypeIdx, a.passwordKeyInput[0]);
    var server := Profiles.Server(a.nameInput[0], a.userInput[0], a.hostInput[0], port, auth, a.groupInput[0]);
    ClosePopup(a.(servers := a.servers + [server]))
  }

  // ---------------------------------------------------------------------------
  // Properties of the transitions

  /** For a selection in range, moving up undoes moving down and vice versa. */
  lemma PreviousUndoesNext(a: App)
    requires |a.servers| > 0 && a.selected.Some? && a.selected.value < |a.servers|
    ensures SelectPrevious(SelectNext(a)) == a
    ensures SelectNext(SelectPrevious(a)) == a
  {
  }

  /** `n` presses of the down key. */
  function SelectNextTimes(a: App, n: nat): App {
    if n == 0 then a else SelectNext(SelectNextTimes(a, n - 1))
  }

  /** `n` presses of the down key move an in-range selection `n` places round
      the list. */
  lemma {:induction false} SelectNextTimesMoves(a: App, n: nat)
    requires |a.servers| > 0 && a.selected.Some? && a.selected.value < |a.servers|
    ensures SelectNextTimes(a, n) == a.(selected := Some((a.selected.value + n) % |a.servers|))
  {
    if n > 0 {
      SelectNextTimesMoves(a, n - 1);
      WrapStep(a.selected.value + n - 1, |a.servers|);
    }
  }

  /** Stepping a wrapped index on by one is wrapping the next index. */
  lemma WrapStep(x: nat, len: nat)
    requires len > 0
    ensures (x % len + 1) % len == (x + 1) % len
  {
    var q, r := x / len, x % len;
    assert x == q * len + r;
    if r + 1 < len {
      ModUnique(x + 1, len, q, r + 1);
      ModUnique(r + 1, len, 0, r + 1);
    } else {
      ModUnique(x + 1, len, q + 1, 0);
      ModUnique(r + 1, len, 1, 0);
    }
  }

  /** The remainder is the unique `r` in `[0, len)` with `x == q * len + r`. */
  lemma ModUnique(x: int, len: int, q: int, r: int)
    requires len > 0 && 0 <= r < len && x == q * len + r
    ensures x % len == r
  {
    var q', r' := x / len, x % len;
    assert q * len + r == q' * len + r';
    assert (q - q') * len == r' - r;
    if q > q' {
      MulAtLeast(q - q', len);
    } else if q < q' {
      MulAtLeast(q' - q, len);
    }
  }

  lemma {:induction false} MulAtLeast(d: nat, len: nat)
    requires d >= 1
    ensures d * len >= len
  {
    if d > 1 {
      MulAtLeast(d - 1, len);
      assert d * len == (d - 1) * len + len;
    }
  }

  /** Pressing down once per server comes back to the same selection. */
  lemma SelectNextFullCycle(a: App)
    requires |a.servers| > 0 && a.selected.Some? && a.selected.value < |a.servers|
    ensures SelectNextTimes(a, |a.servers|) == a
  {
    var i, len := a.selected.value, |a.servers|;
    SelectNextTimesMoves(a, len);
    ModUnique(i + len, len, 1, i);
  }

  /** Closing an already closed popup changes nothing. */
  lemma ClosePopupIdempotent(a: App)
    ensures ClosePopup(ClosePopup(a)) == ClosePopup(a)
  {
  }

  /** Eight presses of tab return the form to the field it started on. */
  lemma {:induction false} NextFormFieldCycle(a: App)
    requires a.focus.Form?
    ensures NextFormField(NextFormField(NextFormField(NextFormField(
              NextFormField(NextFormField(NextFormField(NextFormField(a)))))))) == a
  {
    FormCyclePeriod(a.focus.field, 0);
    var f := a.focus.field;
    assert Advance(f, 8) == f.Next().Next().Next().Next().Next().Next().Next().Next();
  }

  /** Every transition keeps the selection pointing into the list. */
  lemma TransitionsKeepSelection(a: App)
    requires SelectionInRange(a)
    ensures SelectionInRange(SelectNext(a))
    ensures SelectionInRange(SelectPrevious(a))
    ensures SelectionInRange(OpenAddServerPopup(a))
    ensures SelectionInRange(ClosePopup(a))
    ensures SelectionInRange(NextFormField(a))
    ensures SelectionInRange(SaveServer(a))
  {
  }

  /** Submitting a freshly opened form unedited adds a server in the default
      group on port 22 with an empty password. */
  lemma SubmitUneditedForm(a: App)
    ensures var r := SaveServer(OpenAddServerPopup(a));
            && r.servers == a.servers + [Profiles.Server("", "", "", 22, Profiles.Password(""), "General")]
            && !r.showPopup && r.focus == ServerList
  {
    ParseU16RoundTrip(22);
    assert DecimalString(22) == "22";
    var r := SaveServer(OpenAddServerPopup(a));
    assert r.servers == r.servers[..|a.servers|] + [r.servers[|a.servers|]];
  }

  /** A port above the `u16` range falls back to 22 instead of wrapping. */
  lemma OutOfRangePortFallsBack(n: nat)
    requires n >= 0x1_0000
    ensures PortOrDefault(DecimalString(n)) == 22
  {
    ParseU16RejectsOverflow(n);
  }

  /** Any `u16` typed in its decimal form is the port saved. */
  lemma TypedPortIsKept(n: uint16)
    ensures PortOrDefault(DecimalString(n)) == n
  {
    ParseU16RoundTrip(n);
  }
}

=== FILE: json.dfy ===
/**
  A JSON document as serde_json sees it once the text has been tokenised,
  and the two rules derived `Deserialize` implementations apply to an object:
  fields the target does not name are ignored, and a named field that occurs
  twice is an error. The text syntax itself is not modelled here.
 */
module Json {
  import opened Results
  import opened RustText

  datatype Json =
    | JNull
    | JBool(b: bool)
    | JInt(i: int)
      /** A number literal with a fraction or an exponent, mantissa * 10^exponent. */
    | JFloat(mantissa: int, exponent: int)
    | JString(s: string)
    | JArray(items: seq<Json>)
    | JObject(members: seq<(string, Json)>)

  /** What a struct deserializer finds under one key of an object. */
  datatype Field = Missing | Present(value: Json) | Duplicated

  function Occurrences(members: seq<(string, Json)>, key: string): nat {
    if |members| == 0 then 0
    else (if members[0].0 == key then 1 else 0) + Occurrences(members[1..], key)
  }

  function Lookup(members: seq<(string, Json)>, key: string): (f: Field)
    ensures f.Missing? <==> Occurrences(members, key) == 0
    ensures f.Duplicated? <==> Occurrences(members, key) > 1
    ensures f.Present? ==> exists i :: 0 <= i < |members| && members[i] == (key, f.value)
  {
    if |members| == 0 then Missing
    else if members[0].0 == key then
      (if Lookup(members[1..], key).Missing? then Present(members[0].1) else Duplicated)
    else
      var rest := Lookup(members[1..], key);
      if rest.Present? then
        var i :| 0 <= i < |members[1..]| && members[1..][i] == (key, rest.value);
        assert members[i + 1] == (key, rest.value);
        rest
      else rest
  }

  /** No key occurs twice among the members. */
  predicate DistinctKeys(members: seq<(string, Json)>) {
    forall i, j :: 0 <= i < j < |members| ==> members[i].0 != members[j].0
  }

  /** In an object without repeated keys, every member is found under its key. */
  lemma {:induction false} LookupDistinct(members: seq<(string, Json)>, i: nat)
    requires i < |members| && DistinctKeys(members)
    ensures Lookup(members, members[i].0) == Present(members[i].1)
  {
    if i > 0 {
      assert members[1..][i - 1] == members[i];
      LookupDistinct(members[1..], i - 1);
    } else {
      NotAmong(members[1..], members[0].0);
    }
  }

  /** A key that no member carries is missing. */
  lemma {:induction false} NotAmong(members: seq<(string, Json)>, key: string)
    requires forall i :: 0 <= i < |members| ==> members[i].0 != key
    ensures Lookup(members, key).Missing?
  {
    if |members| > 0 {
      NotAmong(members[1..], key);
    }
  }

  /** A required `String` field. */
  function RequiredString(members: seq<(string, Json)>, key: string): (r: Option<string>)
    ensures r.Some? ==> Lookup(members, key) == Present(JString(r.value))
    ensures r.None? ==> !(Lookup(members, key).Present? && Lookup(members, key).value.JString?)
  {
    match Lookup(members, key)
    case Present(JString(s)) => Some(s)
    case _ => None
  }

  /** A required `u16` field: an integer literal within range; a literal with a
      fraction or exponent, or any other value, is rejected. */
  function RequiredU16(members: seq<(string, Json)>, key: string): (r: Option<uint16>)
    ensures r.Some? ==> Lookup(members, key) == Present(JInt(r.value))
    ensures r.None? ==> !(Lookup(members, key).Present? && Lookup(members, key).value.JInt?
                          && 0 <= Lookup(members, key).value.i < 0x1_0000)
  {
    match Lookup(members, key)
    case Present(JInt(n)) => if 0 <= n < 0x1_0000 then Some(n) else None
    case _ => None
  }
}

=== FILE: profiles.dfy ===
/**
  The connection-profile records of the configuration store and the three
  on-disk shapes a configuration file may take: the current list of servers,
  the legacy list without authentication or group, and the encrypted
  envelope. Decoders follow serde's derived `Deserialize` on a JSON object;
  encoders follow the derived `Serialize`.
 */
module Profiles {
  import opened Results
  import opened RustText
  import opened Json

  /** How the client authenticates; only `Agent` carries no secret. */
  datatype AuthType = Password(secret: string) | Key(path: string) | Agent

  datatype Server = Server(
    name: string,
    user: string,
    host: string,
    port: uint16,
    authType: AuthType,
    group: string)

  /** The record written by versions that had no authentication or group. */
  datatype LegacyServer = LegacyServer(name: string, user: string, host: string, port: uint16)

  /** Base64 text of the salt, the nonce and the ciphertext (tag included). */
  datatype EncryptedConfig = EncryptedConfig(salt: string, nonce: string, ciphertext: string)

  /** The group a server belongs to when none is recorded. */
  const DefaultGroup: string := "General"

  // ---------------------------------------------------------------------------
  // AuthType: an externally tagged enum

  /** `"Agent"` or `{"Agent": null}` for the unit variant, `{"Password": s}`
      and `{"Key": s}` for the newtype variants; an object must have exactly
      one member. */
  function DecodeAuthType(j: Json): (r: Option<AuthType>)
    ensures r == Some(Agent) <==> j == JString("Agent") || j == JObject([("Agent", JNull)])
    ensures forall s :: r == Some(Password(s)) <==> j == JObject([("Password", JString(s))])
    ensures forall s :: r == Some(Key(s)) <==> j == JObject([("Key", JString(s))])
  {
    match j
    case JString(tag) => if tag == "Agent" then Some(Agent) else None
    case JObject(members) =>
      if |members| != 1 then None
      else
        var (tag, content) := members[0];
        assert members == [(tag, content)];
        if tag == "Agent" && content == JNull then Some(Agent)
        else if tag == "Password" && content.JString? then Some(Password(content.s))
        else if tag == "Key" && content.JString? then Some(Key(content.s))
        else None
    case _ => None
  }

  function EncodeAuthType(a: AuthType): Json {
    match a
    case Password(s) => JObject([("Password", JString(s))])
    case Key(p) => JObject([("Key", JString(p))])
    case Agent => JString("Agent")
  }

  lemma AuthTypeRoundTrip(a: AuthType)
    ensures DecodeAuthType(EncodeAuthType(a)) == Some(a)
  {
  }

  // ---------------------------------------------------------------------------
  // Server (current shape)

  /** The `group` field: absent means `DefaultGroup`; present must be a string. */
  function GroupField(members: seq<(string, Json)>): (r: Option<string>)
    ensures Lookup(members, "group").Missing? ==> r == Some(DefaultGroup)
    ensures Lookup(members, "group").Present? ==>
              (r.Some? <==> Lookup(members, "group").value.JString?)
    ensures r.Some? && Lookup(members, "group").Present? ==>
              Lookup(members, "group").value == JString(r.value)
    ensures Lookup(members, "group").Duplicated? ==> r.None?
  {
    match Lookup(members, "group")
    case Missing => Some(DefaultGroup)
    case Present(JString(g)) => Some(g)
    case _ => None
  }

  /** A `Server` object: four required fields, the tagged authentication, and
      the defaulted group; unknown fields are ignored. */
  function DecodeServer(j: Json): Option<Server> {
    if !j.JObject? then None
    else
      var ms := j.members;
      var name :- RequiredString(ms, "name");
      var user :- RequiredString(ms, "user");
      var host :- RequiredString(ms, "host");
      var port :- RequiredU16(ms, "port");
      var auth :- match Lookup(ms, "auth_type")
                  case Present(a) => DecodeAuthType(a)
                  case _ => None;
      var group :- GroupField(ms);
      Some(Server(name, user, host, port, auth, group))
  }

  /** A decoded server's fields are the values found under their keys. */
  lemma DecodedServerFields(j: Json)
    requires DecodeServer(j).Some?
    ensures var s := DecodeServer(j).value;
            && j.JObject?
            && Lookup(j.members, "name") == Present(JString(s.name))
            && Lookup(j.members, "user") == Present(JString(s.user))
            && Lookup(j.members, "host") == Present(JString(s.host))
            && Lookup(j.members, "port") == Present(JInt(s.port))
            && Lookup(j.members, "auth_type").Present?
            && DecodeAuthType(Lookup(j.members, "auth_type").value) == Some(s.authType)
            && GroupField(j.members) == Some(s.group)
  {
  }

  function ServerMembers(s: Server): seq<(string, Json)> {
    [ ("name", JString(s.name)),
      ("user", JString(s.user)),
      ("host", JString(s.host)),
      ("port", JInt(s.port)),
      ("auth_type", EncodeAuthType(s.authType)),
      ("group", JString(s.group)) ]
  }

  function EncodeServer(s: Server): Json {
    JObject(ServerMembers(s))
  }

  /** `Vec<T>`: an array decodes when every element decodes, in order; one
      element that fails fails the whole list. */
  function DecodeList<T>(items: seq<Json>, decode: Json -> Option<T>): (r: Option<seq<T>>)
    ensures r.Some? ==> |r.value| == |items|
    ensures r.Some? ==> forall i :: 0 <= i < |items| ==> decode(items[i]) == Some(r.value[i])
    ensures r.None? ==> exists i :: 0 <= i < |items| && decode(items[i]).None?
  {
    if |items| == 0 then Some([])
    else
      var first := decode(items[0]);
      if first.None? then None
      else
        var rest := DecodeList(items[1..], decode);
        assert forall i :: 1 <= i < |items| ==> items[i] == items[1..][i - 1];
        if rest.None? then None
        else Some([first.value] + rest.value)
  }

  function DecodeServers(j: Json): Option<seq<Server>> {
    if j.JArray? then DecodeList(j.items, DecodeServer) else None
  }

  function EncodeServers(servers: seq<Server>): (j: Json)
    ensures j.JArray? && |j.items| == |servers|
    ensures forall i :: 0 <= i < |servers| ==> j.items[i] == EncodeServer(servers[i])
  {
    JArray(seq(|servers|, i requires 0 <= i < |servers| => EncodeServer(servers[i])))
  }

  // ---------------------------------------------------------------------------
  // LegacyServer

  /** A `LegacyServer` object: name, user, host and port; anything else,
      `auth_type` and `group` included, is ignored. */
  function DecodeLegacyServer(j: Json): Option<LegacyServer> {
    if !j.JObject? then None
    else
      var ms := j.members;
      var name :- RequiredString(ms, "name");
      var user :- RequiredString(ms, "user");
      var host :- RequiredString(ms, "host");
      var port :- RequiredU16(ms, "port");
      Some(LegacyServer(name, user, host, port))
  }

  /** A decoded legacy record's fields are the values found under their keys. */
  lemma DecodedLegacyFields(j: Json)
    requires DecodeLegacyServer(j).Some?
    ensures var l := DecodeLegacyServer(j).value;
            && j.JObject?
            && Lookup(j.members, "name") == Present(JString(l.name))
            && Lookup(j.members, "user") == Present(JString(l.user))
            && Lookup(j.members, "host") == Present(JString(l.host))
            && Lookup(j.members, "port") == Present(JInt(l.port))
  {
  }

  /** Decoding is complete: a record whose four fields are present, with
      strings for name, user and host and an in-range integer port, decodes
      to exactly those values. */
  lemma LegacyFieldsDecode(j: Json, name: string, user: string, host: string, port: uint16)
    requires j.JObject?
    requires Lookup(j.members, "name") == Present(JString(name))
    requires Lookup(j.members, "user") == Present(JString(user))
    requires Lookup(j.members, "host") == Present(JString(host))
    requires Lookup(j.members, "port") == Present(JInt(port))
    ensures DecodeLegacyServer(j) == Some(LegacyServer(name, user, host, port))
  {
  }

  function DecodeLegacy(j: Json): Option<seq<LegacyServer>> {
    if j.JArray? then DecodeList(j.items, DecodeLegacyServer) else None
  }

  /** A legacy record upgraded to the current shape. */
  function Upgrade(l: LegacyServer): Server {
    Server(l.name, l.user, l.host, l.port, Agent, DefaultGroup)
  }

  /** Migration of a legacy list: same length and order, every record keeps
      its name, user, host and port and gains `Agent` and the default group. */
  function Migrate(legacy: seq<LegacyServer>): (r: seq<Server>)
    ensures |r| == |legacy|
    ensures forall i :: 0 <= i < |legacy| ==>
              && r[i].name == legacy[i].name
              && r[i].user == legacy[i].user
              && r[i].host == legacy[i].host
              && r[i].port == legacy[i].port
              && r[i].authType == Agent
              && r[i].group == DefaultGroup
  {
    if |legacy| == 0 then []
    else
      var rest := Migrate(legacy[1..]);
      assert forall i :: 1 <= i < |legacy| ==> legacy[i] == legacy[1..][i - 1];
      [Upgrade(legacy[0])] + rest
  }

  // ---------------------------------------------------------------------------
  // EncryptedConfig

  /** The encrypted envelope: an object with three base64 strings. */
  function DecodeEncrypted(j: Json): (r: Option<EncryptedConfig>)
    ensures r.Some? ==>
              && j.JObject?
              && Lookup(j.members, "salt") == Present(JString(r.value.salt))
              && Lookup(j.members, "nonce") == Present(JString(r.value.nonce))
              && Lookup(j.members, "ciphertext") == Present(JString(r.value.ciphertext))
  {
    if !j.JObject? then None
    else
      var salt :- RequiredString(j.members, "salt");
      var nonce :- RequiredString(j.members, "nonce");
      var ciphertext :- RequiredString(j.members, "ciphertext");
      Some(EncryptedConfig(salt, nonce, ciphertext))
  }

  /** Decoding is complete: an object holding strings under `salt`, `nonce`
      and `ciphertext`, in any order and beside any other keys, decodes to
      exactly those strings. */
  lemma EncryptedFieldsDecode(j: Json, salt: string, nonce: string, ciphertext: string)
    requires j.JObject?
    requires Lookup(j.members, "salt") == Present(JString(salt))
    requires Lookup(j.members, "nonce") == Present(JString(nonce))
    requires Lookup(j.members, "ciphertext") == Present(JString(ciphertext))
    ensures DecodeEncrypted(j) == Some(EncryptedConfig(salt, nonce, ciphertext))
  {
  }

  function EncodeEncrypted(e: EncryptedConfig): Json {
    JObject([("salt", JString(e.salt)), ("nonce", JString(e.nonce)), ("ciphertext", JString(e.ciphertext))])
  }

  // ---------------------------------------------------------------------------
  // Properties of the shapes

  /** A server record that has no `group` key is given the default group. */
  lemma MissingGroupDefaults(j: Json)
    requires DecodeServer(j).Some?
    requires Lookup(j.members, "group").Missing?
    ensures DecodeServer(j).value.group == DefaultGroup
  {
  }

  /** Every record the current decoder accepts is also accepted by the legacy
      decoder (extra fields are ignored), with the same name, user, host and
      port. A file is therefore ambiguous between the two shapes whenever it
      is current, and only trying the current shape first keeps its
      authentication and group. */
  lemma {:induction false} CurrentIsAlsoLegacy(j: Json)
    requires DecodeServers(j).Some?
    ensures DecodeLegacy(j).Some?
    ensures forall i :: 0 <= i < |DecodeServers(j).value| ==>
              var s := DecodeServers(j).value[i];
              DecodeLegacy(j).value[i] == LegacyServer(s.name, s.user, s.host, s.port)
  {
    CurrentListIsAlsoLegacy(j.items);
  }

  lemma {:induction false} CurrentListIsAlsoLegacy(items: seq<Json>)
    requires forall i :: 0 <= i < |items| ==> DecodeServer(items[i]).Some?
    ensures DecodeList(items, DecodeLegacyServer).Some?
    ensures forall i :: 0 <= i < |items| ==>
              var s := DecodeServer(items[i]).value;
              DecodeList(items, DecodeLegacyServer).value[i] == LegacyServer(s.name, s.user, s.host, s.port)
  {
    forall i | 0 <= i < |items|
      ensures var s := DecodeServer(items[i]).value;
              DecodeLegacyServer(items[i]) == Some(LegacyServer(s.name, s.user, s.host, s.port))
    {
      ServerIsAlsoLegacy(items[i]);
    }
  }

  /** A record in the current shape also reads as a legacy record with the
      same name, user, host and port. */
  lemma ServerIsAlsoLegacy(j: Json)
    requires DecodeServer(j).Some?
    ensures var s := DecodeServer(j).value;
            DecodeLegacyServer(j) == Some(LegacyServer(s.name, s.user, s.host, s.port))
  {
    var s := DecodeServer(j).value;
    DecodedServerFields(j);
    LegacyFieldsDecode(j, s.name, s.user, s.host, s.port);
  }

  /** A legacy record (no `auth_type` key) is never mistaken for a current one. */
  lemma LegacyRecordIsNotCurrent(j: Json)
    requires j.JObject? && Lookup(j.members, "auth_type").Missing?
    ensures DecodeServer(j).None?
  {
  }

  /** The encrypted envelope is an object and a server list is an array, so the
      third shape never overlaps the first two. */
  lemma EncryptedIsNeitherList(j: Json)
    requires DecodeEncrypted(j).Some?
    ensures DecodeServers(j).None? && DecodeLegacy(j).None?
  {
  }

  lemma FieldNamesDistinct()
    ensures "name" != "user" && "name" != "host" && "name" != "port" && "name" != "auth_type" && "name" != "group"
    ensures "user" != "host" && "user" != "port" && "user" != "auth_type" && "user" != "group"
    ensures "host" != "port" && "host" != "auth_type" && "host" != "group"
    ensures "port" != "auth_type" && "port" != "group"
    ensures "auth_type" != "group"
    ensures "salt" != "nonce" && "salt" != "ciphertext" && "nonce" != "ciphertext"
  {
    assert "name"[0] == 'n' && "user"[0] == 'u' && "host"[0] == 'h' && "port"[0] == 'p';
    assert "salt"[0] == 's' && "nonce"[0] == 'n' && "ciphertext"[0] == 'c';
  }

  /** The serialized form of a server reads back as the same server. */
  lemma ServerRoundTrip(s: Server)
    ensures DecodeServer(EncodeServer(s)) == Some(s)
  {
    ServerMembersFound(s);
    AuthTypeRoundTrip(s.authType);
    DecodeFoundFields(ServerMembers(s), s);
  }

  /** An object whose keys hold a server's fields decodes to that server. */
  lemma DecodeFoundFields(ms: seq<(string, Json)>, s: Server)
    requires Lookup(ms, "name") == Present(JString(s.name))
    requires Lookup(ms, "user") == Present(JString(s.user))
    requires Lookup(ms, "host") == Present(JString(s.host))
    requires Lookup(ms, "port") == Present(JInt(s.port))
    requires Lookup(ms, "auth_type").Present?
    requires DecodeAuthType(Lookup(ms, "auth_type").value) == Some(s.authType)
    requires Lookup(ms, "group") == Present(JString(s.group))
    ensures DecodeServer(JObject(ms)) == Some(s)
  {
    assert RequiredString(ms, "name") == Some(s.name);
    assert RequiredString(ms, "user") == Some(s.user);
    assert RequiredString(ms, "host") == Some(s.host);
    assert RequiredU16(ms, "port") == Some(s.port);
    assert GroupField(ms) == Some(s.group);
  }

  /** A record with the five required fields and no `group` key is accepted
      and placed in the default group. */
  lemma MissingGroupDecodes(
    ms: seq<(string, Json)>, name: string, user: string, host: string, port: uint16, auth: AuthType)
    requires Lookup(ms, "name") == Present(JString(name))
    requires Lookup(ms, "user") == Present(JString(user))
    requires Lookup(ms, "host") == Present(JString(host))
    requires Lookup(ms, "port") == Present(JInt(port))
    requires Lookup(ms, "auth_type").Present?
    requires DecodeAuthType(Lookup(ms, "auth_type").value) == Some(auth)
    requires Lookup(ms, "group").Missing?
    ensures DecodeServer(JObject(ms)) == Some(Server(name, user, host, port, auth, DefaultGroup))
  {
    assert RequiredString(ms, "name") == Some(name);
    assert RequiredString(ms, "user") == Some(user);
    assert RequiredString(ms, "host") == Some(host);
    assert RequiredU16(ms, "port") == Some(port);
    assert GroupField(ms) == Some(DefaultGroup);
  }

  /** Each field of a serialized server is found under its own key. */
  lemma ServerMembersFound(s: Server)
    ensures var ms := ServerMembers(s);
            && Lookup(ms, "name") == Present(JString(s.name))
            && Lookup(ms, "user") == Present(JString(s.user))
            && Lookup(ms, "host") == Present(JString(s.host))
            && Lookup(ms, "port") == Present(JInt(s.port))
            && Lookup(ms, "auth_type") == Present(EncodeAuthType(s.authType))
            && Lookup(ms, "group") == Present(JString(s.group))
  {
    var ms := ServerMembers(s);
    FieldNamesDistinct();
    assert DistinctKeys(ms);
    LookupDistinct(ms, 0);
    LookupDistinct(ms, 1);
    LookupDistinct(ms, 2);
    LookupDistinct(ms, 3);
    LookupDistinct(ms, 4);
    LookupDistinct(ms, 5);
  }

  /** `serde_json::to_string(&servers)` read back as `Vec<Server>` gives the
      same servers in the same order. */
  lemma {:induction false} ServersRoundTrip(servers: seq<Server>)
    ensures DecodeServers(EncodeServers(servers)) == Some(servers)
  {
    ServerListRoundTrip(EncodeServers(servers).items, servers);
  }

  lemma {:induction false} ServerListRoundTrip(items: seq<Json>, servers: seq<Server>)
    requires |items| == |servers|
    requires forall i :: 0 <= i < |servers| ==> items[i] == EncodeServer(servers[i])
    ensures DecodeList(items, DecodeServer) == Some(servers)
  {
    if |servers| > 0 {
      ServerRoundTrip(servers[0]);
      ServerListRoundTrip(items[1..], servers[1..]);
      assert servers == [servers[0]] + servers[1..];
    }
  }

  /** The encrypted envelope reads back as itself. */
  lemma EncryptedRoundTrip(e: EncryptedConfig)
    ensures DecodeEncrypted(EncodeEncrypted(e)) == Some(e)
  {
    var ms := EncodeEncrypted(e).members;
    FieldNamesDistinct();
    assert DistinctKeys(ms);
    forall i | 0 <= i < 3
      ensures Lookup(ms, ms[i].0) == Present(ms[i].1)
    {
      LookupDistinct(ms, i);
    }
    assert Lookup(ms, "salt") == Present(ms[0].1);
    assert Lookup(ms, "nonce") == Present(ms[1].1);
    assert Lookup(ms, "ciphertext") == Present(ms[2].1);
  }
}

=== FILE: results.dfy ===
/**
  Failure-compatible wrappers used throughout the model: `Option` for Rust's
  `Option<T>` and `Result` for Rust's `Result<T, E>`.
 */
module Results {

  datatype Option<+T> = None | Some(value: T) {

    predicate IsFailure() {
      None?
    }

    function PropagateFailure<U>(): Option<U>
      requires None?
    {
      None
    }

    function Extract(): T
      requires Some?
    {
      value
    }

    /** Rust's `unwrap_or`. */
    function GetOr(default: T): T {
      match this
      case Some(v) => v
      case None => default
    }
  }

  datatype Result<+T, +E> = Success(value: T) | Failure(error: E) {

    predicate IsFailure() {
      Failure?
    }

    function PropagateFailure<U>(): Result<U, E>
      requires Failure?
    {
      Failure(error)
    }

    function Extract(): T
      requires Success?
    {
      value
    }
  }
}

=== FILE: rusttext.dfy ===
/**
  The few pieces of Rust's `str` API that the configuration and form code
  depend on: `char::is_whitespace`, `trim`, `starts_with`,
  `trim_start_matches`, `lines`, and `<u16 as FromStr>::from_str`.
 */
module RustText {
  import opened Results

  /** Rust's `u16`. */
  type uint16 = n: int | 0 <= n < 0x1_0000

  /** `char::is_whitespace`: the Unicode White_Space property. */
  predicate IsWhitespace(c: char) {
    || ('\t' <= c <= '\r')
    || c == ' '
    || c == '\U{85}'
    || c == '\U{A0}'
    || c == '\U{1680}'
    || ('\U{2000}' <= c <= '\U{200A}')
    || c == '\U{2028}'
    || c == '\U{2029}'
    || c == '\U{202F}'
    || c == '\U{205F}'
    || c == '\U{3000}'
  }

  predicate StartsWith(s: string, prefix: string) {
    |prefix| <= |s| && s[..|prefix|] == prefix
  }

  /** `str::trim_start`: drops the longest all-whitespace prefix. */
  function TrimStart(s: string): (r: string)
    ensures |r| <= |s| && r == s[|s| - |r|..]
    ensures forall i :: 0 <= i < |s| - |r| ==> IsWhitespace(s[i])
    ensures |r| > 0 ==> !IsWhitespace(r[0])
  {
    if |s| > 0 && IsWhitespace(s[0]) then TrimStart(s[1..]) else s
  }

  /** `str::trim_end`: drops the longest all-whitespace suffix. */
  function TrimEnd(s: string): (r: string)
    ensures |r| <= |s| && r == s[..|r|]
    ensures forall i :: |r| <= i < |s| ==> IsWhitespace(s[i])
    ensures |r| > 0 ==> !IsWhitespace(r[|r| - 1])
  {
    if |s| > 0 && IsWhitespace(s[|s| - 1]) then TrimEnd(s[..|s| - 1]) else s
  }

  /** `str::trim`. */
  function Trim(s: string): (r: string)
    ensures |r| > 0 ==> !IsWhitespace(r[0]) && !IsWhitespace(r[|r| - 1])
  {
    TrimEnd(TrimStart(s))
  }

  /** What `trim` keeps is the slice of `s` between its leading and trailing
      white space: everything before and after it is white space, and it
      neither starts nor ends with white space. */
  lemma TrimSlice(s: string)
    ensures var k := |s| - |TrimStart(s)|;
            var r := Trim(s);
            && k + |r| <= |s| && r == s[k..k + |r|]
            && (forall i :: 0 <= i < k ==> IsWhitespace(s[i]))
            && (forall i :: k + |r| <= i < |s| ==> IsWhitespace(s[i]))
  {
    var t := TrimStart(s);
    SliceOfSuffix(s, t, TrimEnd(t));
  }

  /** Trimming removes exactly the white space padding a string that begins
      and ends with a non-blank character. */
  lemma TrimOfPadded(pre: string, x: string, post: string)
    requires forall i :: 0 <= i < |pre| ==> IsWhitespace(pre[i])
    requires forall i :: 0 <= i < |post| ==> IsWhitespace(post[i])
    requires |x| > 0 && !IsWhitespace(x[0]) && !IsWhitespace(x[|x| - 1])
    ensures Trim(pre + x + post) == x
  {
    assert pre + x + post == pre + (x + post);
    TrimStartDropsBlanks(pre, x + post);
    TrimEndDropsBlanks(x, post);
  }

  lemma {:induction false} TrimStartDropsBlanks(pre: string, t: string)
    requires forall i :: 0 <= i < |pre| ==> IsWhitespace(pre[i])
    requires |t| > 0 && !IsWhitespace(t[0])
    ensures TrimStart(pre + t) == t
    decreases |pre|
  {
    if |pre| > 0 {
      assert (pre + t)[1..] == pre[1..] + t;
      TrimStartDropsBlanks(pre[1..], t);
    } else {
      assert pre + t == t;
    }
  }

  lemma {:induction false} TrimEndDropsBlanks(t: string, post: string)
    requires forall i :: 0 <= i < |post| ==> IsWhitespace(post[i])
    requires |t| > 0 && !IsWhitespace(t[|t| - 1])
    ensures TrimEnd(t + post) == t
    decreases |post|
  {
    if |post| > 0 {
      var shorter := post[..|post| - 1];
      assert (t + post)[..|t + post| - 1] == t + shorter;
      TrimEndDropsBlanks(t, shorter);
    } else {
      assert t + post == t;
    }
  }

  /** A prefix `r` of a suffix `t` of `s` is a slice of `s`, and what `t` has
      after `r` is what `s` has after that slice. */
  lemma SliceOfSuffix(s: string, t: string, r: string)
    requires |t| <= |s| && t == s[|s| - |t|..]
    requires |r| <= |t| && r == t[..|r|]
    requires forall j :: |r| <= j < |t| ==> IsWhitespace(t[j])
    ensures var k := |s| - |t|;
            && r == s[k..k + |r|]
            && (forall i :: k + |r| <= i < |s| ==> IsWhitespace(s[i]))
  {
    var k := |s| - |t|;
    forall i | k + |r| <= i < |s|
      ensures IsWhitespace(s[i])
    {
      assert s[i] == t[i - k];
    }
  }

  /** `str::trim_start_matches` with a string pattern: strips the pattern
      from the front as many times as it occurs there. */
  function TrimStartMatches(s: string, pattern: string): string
    decreases |s|
  {
    if |pattern| > 0 && StartsWith(s, pattern) then TrimStartMatches(s[|pattern|..], pattern) else s
  }

  /** What `trim_start_matches` leaves is a suffix of its input that no longer
      starts with the (non-empty) pattern. */
  lemma {:induction false} TrimStartMatchesSuffix(s: string, pattern: string)
    ensures var r := TrimStartMatches(s, pattern);
            |r| <= |s| && r == s[|s| - |r|..] && (|pattern| > 0 ==> !StartsWith(r, pattern))
    decreases |s|
  {
    if |pattern| > 0 && StartsWith(s, pattern) {
      TrimStartMatchesSuffix(s[|pattern|..], pattern);
    }
  }

  /** Position of the first `c` in `s`, or `|s|` when there is none. */
  function IndexOf(s: string, c: char): (k: nat)
    ensures k <= |s|
    ensures forall i :: 0 <= i < k ==> s[i] != c
    ensures k < |s| ==> s[k] == c
  {
    if |s| == 0 then 0 else if s[0] == c then 0 else 1 + IndexOf(s[1..], c)
  }

  /** `str::lines`: splits at `\n`, drops a `\r` directly before a `\n`, and
      yields no empty last line for text that ends in a line break. */
  function Lines(text: string): (ls: seq<string>)
    ensures forall i :: 0 <= i < |ls| ==> '\n' !in ls[i]
    ensures |text| == 0 <==> |ls| == 0
    decreases |text|
  {
    if |text| == 0 then []
    else
      var k := IndexOf(text, '\n');
      if k == |text| then [text]
      else
        var line := if k > 0 && text[k - 1] == '\r' then text[..k - 1] else text[..k];
        assert forall i :: 0 <= i < |line| ==> line[i] == text[i];
        [line] + Lines(text[k + 1..])
  }

  /** Text without a line feed is a single line. */
  lemma LinesSingle(line: string)
    requires |line| > 0 && '\n' !in line
    ensures Lines(line) == [line]
  {
    assert IndexOf(line, '\n') == |line|;
  }

  /** A line ended by `\n` comes first, followed by the lines of the rest; a
      line that does not itself end in `\r` is kept whole. */
  lemma LinesCons(line: string, rest: string)
    requires '\n' !in line && (|line| == 0 || line[|line| - 1] != '\r')
    ensures Lines(line + "\n" + rest) == [line] + Lines(rest)
  {
    var text := line + "\n" + rest;
    assert text[|line|] == '\n';
    assert forall i :: 0 <= i < |line| ==> text[i] == line[i];
    assert IndexOf(text, '\n') == |line|;
    assert text[..|line|] == line;
    assert text[|line| + 1..] == rest;
  }

  /** A line ended by `\r\n` loses both characters. */
  lemma LinesConsCrLf(line: string, rest: string)
    requires '\n' !in line
    ensures Lines(line + "\r\n" + rest) == [line] + Lines(rest)
  {
    var text := line + "\r\n" + rest;
    assert text[|line|] == '\r' && text[|line| + 1] == '\n';
    assert forall i :: 0 <= i < |line| ==> text[i] == line[i];
    assert IndexOf(text, '\n') == |line| + 1;
    assert text[..|line|] == line;
    assert text[|line| + 2..] == rest;
  }

  predicate IsDigit(c: char) {
    '0' <= c <= '9'
  }

  predicate AllDigits(s: string) {
    forall i :: 0 <= i < |s| ==> IsDigit(s[i])
  }

  function DigitValue(c: char): nat
    requires IsDigit(c)
  {
    c as int - '0' as int
  }

  function DigitChar(d: nat): (c: char)
    requires d < 10
    ensures IsDigit(c) && DigitValue(c) == d
  {
    ('0' as int + d) as char
  }

  /** The number a string of decimal digits denotes (leading zeros allowed). */
  function DigitsValue(ds: string): nat
    requires AllDigits(ds)
    decreases |ds|
  {
    if |ds| == 0 then 0 else DigitsValue(ds[..|ds| - 1]) * 10 + DigitValue(ds[|ds| - 1])
  }

  /** The shortest decimal spelling of `n`, as Rust's `to_string` writes it. */
  function DecimalString(n: nat): (s: string)
    ensures |s| > 0 && AllDigits(s)
    ensures n >= 10 ==> s[0] != '0'
  {
    if n < 10 then [DigitChar(n)] else DecimalString(n / 10) + [DigitChar(n % 10)]
  }

  /** `<u16 as FromStr>::from_str`: one optional leading `+`, then at least one
      ASCII digit and nothing else, with a value below 65536. No whitespace is
      accepted and a leading `-` is an invalid digit for an unsigned type. */
  function ParseU16(s: string): (r: Option<uint16>)
    ensures r.Some? ==> |s| > 0
    ensures r.Some? ==> forall i :: 0 <= i < |s| ==> IsDigit(s[i]) || (i == 0 && s[i] == '+')
    // a lone sign is not a number: the text ends in a digit
    ensures r.Some? ==> IsDigit(s[|s| - 1])
  {
    if |s| == 0 then None
    else if (s[0] == '+' || s[0] == '-') && |s| == 1 then None
    else
      var digits := if s[0] == '+' then s[1..] else s;
      if !AllDigits(digits) then None
      else
        var v := DigitsValue(digits);
        if v < 0x1_0000 then Some(v) else None
  }

  /** Digits followed by one more digit denote ten times as much plus it. */
  lemma DigitsValueSnoc(ds: string, c: char)
    requires AllDigits(ds) && IsDigit(c)
    ensures AllDigits(ds + [c])
    ensures DigitsValue(ds + [c]) == DigitsValue(ds) * 10 + DigitValue(c)
  {
    assert (ds + [c])[..|ds|] == ds;
  }

  /** Reading back the decimal spelling of a number gives the number. */
  lemma {:induction false} DigitsValueOfDecimal(n: nat)
    ensures DigitsValue(DecimalString(n)) == n
  {
    if n >= 10 {
      DigitsValueOfDecimal(n / 10);
      DigitsValueSnoc(DecimalString(n / 10), DigitChar(n % 10));
    }
  }

  /** Every `u16` survives printing and `parse::<u16>()`, with or without a
      leading `+`. */
  lemma ParseU16RoundTrip(n: uint16)
    ensures ParseU16(DecimalString(n)) == Some(n)
    ensures ParseU16("+" + DecimalString(n)) == Some(n)
  {
    DigitsValueOfDecimal(n);
    var s := DecimalString(n);
    assert ("+" + s)[1..] == s;
  }

  /** Values beyond the `u16` range are rejected, not wrapped. */
  lemma ParseU16RejectsOverflow(n: nat)
    requires n >= 0x1_0000
    ensures ParseU16(DecimalString(n)) == None
  {
    DigitsValueOfDecimal(n);
  }
}

=== FILE: sshimport.dfy ===
/**
  `Config::import_ssh_config`: adds one server per `Host` alias of the user's
  OpenSSH client configuration that is not a wildcard and whose name is not
  yet in the list. The ssh2_config parser is abstracted as the `query`
  function of a parsed file, from an alias to the parameters it resolves.
 */
module SshImport {
  import opened Results
  import opened RustText
  import opened Profiles
  import opened Store

  /** What `query(alias)` resolves: host name, user, port and identity files. */
  datatype HostParams = HostParams(
    hostName: Option<string>,
    user: Option<string>,
    port: Option<uint16>,
    identityFiles: Option<seq<string>>)

  /** `~/.ssh/config` as the import finds it, in the order the steps fail. */
  datatype SshConfigFile =
    | Missing
    | OpenFailed
    | Unparsable
    | ReadFailed
    | Parsed(content: string, query: string -> HostParams)

  const ImportedGroup: string := "Imported"
  const DefaultPort: uint16 := 22

  /** The first identity file, if any. */
  function Identity(p: HostParams): Option<string> {
    if p.identityFiles.Some? && |p.identityFiles.value| > 0 then Some(p.identityFiles.value[0]) else None
  }

  /** The alias a configuration line declares, if the import considers it: the
      trimmed line starts with `Host `, every leading `Host ` is stripped, the
      rest is trimmed, and an alias containing `*` is skipped. */
  function HostAlias(raw: string): (r: Option<string>)
    ensures r.Some? ==> StartsWith(Trim(raw), "Host ") && '*' !in r.value
  {
    var line := Trim(raw);
    if !StartsWith(line, "Host ") then None
    else
      var alias := Trim(TrimStartMatches(line, "Host "));
      if '*' in alias then None else Some(alias)
  }

  /** The aliases declared by a sequence of lines. */
  function Aliases(lines: seq<string>): set<string>
    decreases |lines|
  {
    if |lines| == 0 then {}
    else AliasSet(HostAlias(lines[0])) + Aliases(lines[1..])
  }

  function AliasSet(alias: Option<string>): set<string> {
    if alias.Some? then {alias.value} else {}
  }

  predicate HasName(servers: seq<Server>, name: string) {
    exists i :: 0 <= i < |servers| && servers[i].name == name
  }

  /** The server imported for an alias. */
  function Imported(alias: string, p: HostParams, localUser: string): (s: Server)
    ensures s.name == alias && s.group == ImportedGroup
    ensures p.hostName.None? ==> s.host == alias
    ensures p.hostName.Some? ==> s.host == p.hostName.value
    ensures p.user.None? ==> s.user == localUser
    ensures p.user.Some? ==> s.user == p.user.value
    ensures p.port.None? ==> s.port == 22
    ensures p.port.Some? ==> s.port == p.port.value
    ensures s.authType.Key? <==> p.identityFiles.Some? && |p.identityFiles.value| > 0
    ensures s.authType.Key? ==> s.authType.path == p.identityFiles.value[0]
    ensures !s.authType.Key? ==> s.authType == Agent
  {
    Server(
      alias,
      p.user.GetOr(localUser),
      p.hostName.GetOr(alias),
      p.port.GetOr(DefaultPort),
      if Identity(p).Some? then Key(Identity(p).value) else Agent,
      ImportedGroup)
  }

  /** `Config::import_ssh_config`. `home` is the home directory, `file` the
      state of `~/.ssh/config`, and `localUser` the login name of the local
      user. On success the count is the number of servers appended. */
  function ImportSshConfig(c: Config, home: Option<string>, file: SshConfigFile, localUser: string)
    : (r: (Config, Result<nat, ConfigError>))
    ensures r.1.Failure? ==> r.0 == c
    ensures home.None? ==> r.1 == Failure(NoHomeDir)
    ensures home.Some? && file.Missing? ==> r == (c, Success(0))
    ensures home.Some? && (file.OpenFailed? || file.ReadFailed?) ==> r == (c, Failure(IoFailure))
    ensures home.Some? && file.Unparsable? ==> r == (c, Failure(SshConfigSyntax))
    ensures r.1.Success? ==>
              && |r.0.servers| == |c.servers| + r.1.value
              && r.0.servers[..|c.servers|] == c.servers
              && r.0.masterPassword == c.masterPassword
    ensures r.1.Success? && file.Parsed? ==>
              // every added server is the import of a declared alias not yet present
              && AddedFrom(r.0.servers, |c.servers|, Aliases(Lines(file.content)), file.query, localUser)
              && FreshFrom(r.0.servers, |c.servers|)
              // every declared alias is present afterwards
              && Covers(r.0.servers, Aliases(Lines(file.content)))
  {
    if home.None? then (c, Failure(NoHomeDir))
    else
      match file
      case Missing => (c, Success(0))
      case OpenFailed => (c, Failure(IoFailure))
      case Unparsable => (c, Failure(SshConfigSyntax))
      case ReadFailed => (c, Failure(IoFailure))
      case Parsed(content, query) =>
        var lines := Lines(content);
        var (servers, count) := ImportLines(c.servers, 0, lines, query, localUser);
        ImportLinesAdded(c.servers, 0, |c.servers|, lines, Aliases(lines), query, localUser);
        ImportLinesFresh(c.servers, 0, |c.servers|, lines, query, localUser);
        ImportLinesCovers(c.servers, 0, {}, lines, query, localUser);
        (Config(servers, c.masterPassword), Success(count))
  }

  /** Servers from index `start` on are imports of aliases in `aliases`. */
  predicate AddedFrom(servers: seq<Server>, start: nat, aliases: set<string>, query: string -> HostParams, localUser: string) {
    forall k :: start <= k < |servers| ==>
      && servers[k].name in aliases
      && servers[k] == Imported(servers[k].name, query(servers[k].name), localUser)
  }

  /** No server from index `start` on repeats the name of an earlier one. */
  predicate FreshFrom(servers: seq<Server>, start: nat) {
    forall j, k :: 0 <= j < k < |servers| && start <= k ==> servers[j].name != servers[k].name
  }

  /** Every alias names some server. */
  predicate Covers(servers: seq<Server>, aliases: set<string>) {
    forall a :: a in aliases ==> HasName(servers, a)
  }

  /** One iteration of the import, given the alias the line declares: it is
      appended, and the count raised, unless the line declares none or a
      server already has that name. */
  function ImportAlias(
    servers: seq<Server>, count: nat, alias: Option<string>, query: string -> HostParams, localUser: string)
    : (next: (seq<Server>, nat))
    ensures |servers| <= |next.0| <= |servers| + 1 && next.0[..|servers|] == servers
    ensures next.1 == count + (|next.0| - |servers|)
    ensures alias.Some? && !HasName(servers, alias.value) <==> |next.0| == |servers| + 1
  {
    if alias.Some? && !HasName(servers, alias.value) then
      (servers + [Imported(alias.value, query(alias.value), localUser)], count + 1)
    else (servers, count)
  }

  /** The `for line in file_content.lines()` loop: each line in turn, with the
      running count of servers added. */
  function ImportLines(
    servers: seq<Server>, count: nat, lines: seq<string>, query: string -> HostParams, localUser: string)
    : (r: (seq<Server>, nat))
    ensures |servers| <= |r.0| && r.0[..|servers|] == servers
    ensures r.1 == count + (|r.0| - |servers|)
    decreases |lines|
  {
    if |lines| == 0 then (servers, count)
    else
      var next := ImportAlias(servers, count, HostAlias(lines[0]), query, localUser);
      var r := ImportLines(next.0, next.1, lines[1..], query, localUser);
      assert r.0[..|servers|] == r.0[..|next.0|][..|servers|];
      r
  }

  lemma ImportAliasAdded(
    servers: seq<Server>, count: nat, start: nat, aliases: set<string>, alias: Option<string>,
    query: string -> HostParams, localUser: string)
    requires start <= |servers|
    requires AddedFrom(servers, start, aliases, query, localUser)
    requires alias.Some? ==> alias.value in aliases
    ensures AddedFrom(ImportAlias(servers, count, alias, query, localUser).0, start, aliases, query, localUser)
  {
  }

  lemma ImportAliasFresh(
    servers: seq<Server>, count: nat, start: nat, alias: Option<string>, query: string -> HostParams, localUser: string)
    requires start <= |servers|
    requires FreshFrom(servers, start)
    ensures FreshFrom(ImportAlias(servers, count, alias, query, localUser).0, start)
  {
    var next := ImportAlias(servers, count, alias, query, localUser).0;
    if |next| > |servers| {
      forall j | 0 <= j < |servers|
        ensures next[j].name != next[|servers|].name
      {
        assert next[j] == servers[j];
      }
    }
  }

  lemma ImportAliasCovers(
    servers: seq<Server>, count: nat, aliases: set<string>, alias: Option<string>,
    query: string -> HostParams, localUser: string)
    requires Covers(servers, aliases)
    ensures Covers(ImportAlias(servers, count, alias, query, localUser).0, aliases + AliasSet(alias))
  {
    var next := ImportAlias(servers, count, alias, query, localUser).0;
    HasNameGrows(servers, next);
    if alias.Some? && !HasName(servers, alias.value) {
      assert next[|servers|].name == alias.value;
    }
  }

  lemma {:induction false} ImportLinesAdded(
    servers: seq<Server>, count: nat, start: nat, lines: seq<string>, aliases: set<string>,
    query: string -> HostParams, localUser: string)
    requires start <= |servers|
    requires AddedFrom(servers, start, aliases, query, localUser)
    requires Aliases(lines) <= aliases
    ensures AddedFrom(ImportLines(servers, count, lines, query, localUser).0, start, aliases, query, localUser)
    decreases |lines|
  {
    if |lines| > 0 {
      var alias := HostAlias(lines[0]);
      ImportAliasAdded(servers, count, start, aliases, alias, query, localUser);
      var next := ImportAlias(servers, count, alias, query, localUser);
      ImportLinesAdded(next.0, next.1, start, lines[1..], aliases, query, localUser);
    }
  }

  lemma {:induction false} ImportLinesFresh(
    servers: seq<Server>, count: nat, start: nat, lines: seq<string>, query: string -> HostParams, localUser: string)
    requires start <= |servers|
    requires FreshFrom(servers, start)
    ensures FreshFrom(ImportLines(servers, count, lines, query, localUser).0, start)
    decreases |lines|
  {
    if |lines| > 0 {
      var alias := HostAlias(lines[0]);
      ImportAliasFresh(servers, count, start, alias, query, localUser);
      var next := ImportAlias(servers, count, alias, query, localUser);
      ImportLinesFresh(next.0, next.1, start, lines[1..], query, localUser);
    }
  }

  lemma {:induction false} ImportLinesCovers(
    servers: seq<Server>, count: nat, aliases: set<string>, lines: seq<string>,
    query: string -> HostParams, localUser: string)
    requires Covers(servers, aliases)
    ensures Covers(ImportLines(servers, count, lines, query, localUser).0, aliases + Aliases(lines))
    decreases |lines|
  {
    if |lines| > 0 {
      var alias := HostAlias(lines[0]);
      ImportAliasCovers(servers, count, aliases, alias, query, localUser);
      var next := ImportAlias(servers, count, alias, query, localUser);
      ImportLinesCovers(next.0, next.1, aliases + AliasSet(alias), lines[1..], query, localUser);
      assert aliases + AliasSet(alias) + Aliases(lines[1..]) == aliases + Aliases(lines);
    }
  }

  lemma HasNameGrows(before: seq<Server>, after: seq<Server>)
    requires |before| <= |after| && after[..|before|] == before
    ensures forall a :: HasName(before, a) ==> HasName(after, a)
  {
    forall a | HasName(before, a) ensures HasName(after, a) {
      var j :| 0 <= j < |before| && before[j].name == a;
      assert after[j] == before[j];
    }
  }

  /** A declared alias is never empty: the trimmed line ends in a non-blank
      character, so something is left once the `Host ` prefixes are gone. */
  lemma HostAliasNonEmpty(raw: string)
    requires HostAlias(raw).Some?
    ensures |HostAlias(raw).value| > 0
  {
    var line := Trim(raw);
    var rest := TrimStartMatches(line, "Host ");
    TrimStartMatchesSuffix(line, "Host ");
    if |rest| == 0 {
      HostPrefixesEndInSpace(line);
    }
    TrimKeepsNonBlank(rest);
  }

  /** A `Host` line naming one blank-free pattern without `*` declares
      exactly that pattern as its alias. */
  lemma OnePatternAlias(w: string)
    requires |w| > 0
    requires forall i :: 0 <= i < |w| ==> !IsWhitespace(w[i]) && w[i] != '*'
    ensures HostAlias("Host " + w) == Some(w)
  {
    TrimOfNonBlankEnds("Host " + w);
    TrimOfNonBlankEnds(w);
    if |w| >= 5 {
      assert w[4] != ' ' && "Host "[4] == ' ';
    }
    HostAliasOf("Host " + w, w);
  }

  /** White space around a `Host` line is trimmed away first, so an indented
      or padded line declares the same alias. */
  lemma PaddedHostAlias(pre: string, w: string, post: string)
    requires forall i :: 0 <= i < |pre| ==> IsWhitespace(pre[i])
    requires forall i :: 0 <= i < |post| ==> IsWhitespace(post[i])
    requires |w| > 0
    requires forall i :: 0 <= i < |w| ==> !IsWhitespace(w[i]) && w[i] != '*'
    ensures HostAlias(pre + "Host " + w + post) == Some(w)
  {
    var line := "Host " + w;
    assert pre + "Host " + w + post == pre + line + post;
    TrimOfPadded(pre, line, post);
    TrimOfNonBlankEnds(line);
    OnePatternAlias(w);
  }

  /** Importing a file that holds the single line `Host w`, where no server
      is named `w` yet, appends the import of `w` and reports one server. */
  lemma ImportOneHost(c: Config, home: string, w: string, query: string -> HostParams, localUser: string)
    requires |w| > 0
    requires forall i :: 0 <= i < |w| ==> !IsWhitespace(w[i]) && w[i] != '*'
    requires !HasName(c.servers, w)
    ensures ImportSshConfig(c, Some(home), Parsed("Host " + w, query), localUser)
            == (Config(c.servers + [Imported(w, query(w), localUser)], c.masterPassword), Success(1))
  {
    var line := "Host " + w;
    HostLineHasNoLineFeed(w);
    LinesSingle(line);
    OnePatternAlias(w);
    ImportSingleLine(c.servers, line, w, query, localUser);
  }

  /** A `Host` line over a blank-free word holds no line feed. */
  lemma HostLineHasNoLineFeed(w: string)
    requires forall i :: 0 <= i < |w| ==> !IsWhitespace(w[i])
    ensures '\n' !in "Host " + w
  {
    var prefix := "Host ";
    assert '\n' !in prefix;
    assert '\n' !in w;
  }

  /** One line declaring a fresh alias appends exactly its import. */
  lemma ImportSingleLine(servers: seq<Server>, line: string, w: string, query: string -> HostParams, localUser: string)
    requires HostAlias(line) == Some(w) && !HasName(servers, w)
    ensures ImportLines(servers, 0, [line], query, localUser) == (servers + [Imported(w, query(w), localUser)], 1)
  {
    var added := ImportAlias(servers, 0, Some(w), query, localUser);
    assert ImportLines(added.0, added.1, [line][1..], query, localUser) == added;
  }

  /** A `Host` line listing two patterns yields one alias, the whole list,
      so the import adds a single server named after both of them. */
  lemma SeveralPatternsOneAlias(first: string, second: string)
    requires |first| > 0 && |second| > 0 && first != "Host"
    requires forall i :: 0 <= i < |first| ==> !IsWhitespace(first[i]) && first[i] != '*'
    requires forall i :: 0 <= i < |second| ==> !IsWhitespace(second[i]) && second[i] != '*'
    ensures HostAlias("Host " + first + " " + second) == Some(first + " " + second)
  {
    var rest := first + " " + second;
    assert "Host " + first + " " + second == "Host " + rest;
    TrimOfNonBlankEnds("Host " + rest);
    TrimOfNonBlankEnds(rest);
    NoSecondHostPrefix(first, second);
    assert forall i :: 0 <= i < |rest| ==> rest[i] != '*' by {
      forall i | 0 <= i < |rest| ensures rest[i] != '*' {
        if i > |first| {
          assert rest[i] == second[i - |first| - 1];
        }
      }
    }
    HostAliasOf("Host " + rest, rest);
  }

  /** Two blank-free words joined by a space start with `Host ` only when the
      first word is `Host`. */
  lemma NoSecondHostPrefix(first: string, second: string)
    requires |first| > 0 && first != "Host"
    requires forall i :: 0 <= i < |first| ==> !IsWhitespace(first[i])
    ensures !StartsWith(first + " " + second, "Host ")
  {
    var rest := first + " " + second;
    var prefix := "Host ";
    assert prefix[4] == ' ' && prefix[..4] == "Host";
    if |first| < 4 {
      assert rest[|first|] == ' ' && IsWhitespace(' ');
      assert prefix[|first|] != ' ';
    } else if |first| > 4 {
      assert rest[4] == first[4];
    } else {
      assert rest[..4] == first;
    }
  }

  /** The keyword is matched case-sensitively: a line starting `host ` is not
      imported, whatever follows. */
  lemma LowerCaseHostIgnored(rest: string)
    ensures HostAlias("host " + rest) == None
  {
    var line := "host " + rest;
    assert line[0] == 'h';
    assert TrimStart(line) == line;
    var t := Trim(line);
    assert t == line[..|t|];
    if |t| >= 5 {
      assert t[0] == 'h';
    }
  }

  /** The alias of an already trimmed `Host ` line whose remainder is trimmed
      and carries no second prefix. */
  lemma HostAliasOf(line: string, rest: string)
    requires line == "Host " + rest && Trim(line) == line
    requires Trim(rest) == rest && !StartsWith(rest, "Host ")
    ensures HostAlias(line) == if '*' in rest then None else Some(rest)
  {
    assert line[..5] == "Host ";
    assert line[5..] == rest;
    assert TrimStartMatches(rest, "Host ") == rest;
    assert TrimStartMatches(line, "Host ") == rest;
  }

  /** Trimming leaves a string that begins and ends with non-blanks as it is. */
  lemma TrimOfNonBlankEnds(s: string)
    requires |s| > 0 && !IsWhitespace(s[0]) && !IsWhitespace(s[|s| - 1])
    ensures Trim(s) == s
  {
  }

  /** A line made only of `Host ` prefixes ends in a space. */
  lemma {:induction false} HostPrefixesEndInSpace(s: string)
    requires StartsWith(s, "Host ")
    requires |TrimStartMatches(s, "Host ")| == 0
    ensures s[|s| - 1] == ' '
  {
    var tail := s[5..];
    if |tail| > 0 {
      assert StartsWith(tail, "Host ");
      HostPrefixesEndInSpace(tail);
      assert s[|s| - 1] == tail[|tail| - 1];
    } else {
      assert s == "Host ";
    }
  }

  /** Trimming a string whose last character is not blank leaves it non-empty. */
  lemma TrimKeepsNonBlank(s: string)
    requires |s| > 0 && !IsWhitespace(s[|s| - 1])
    ensures |Trim(s)| > 0
  {
    var t := TrimStart(s);
    assert |t| > 0;
    assert t[|t| - 1] == s[|s| - 1];
  }
}

=== FILE: store.dfy ===
/**
  The configuration store: loading a configuration file through the
  three-shape cascade, saving it encrypted under the master password, and the
  in-memory list mutators.

  Everything the store does not compute itself is a field of
  `Collaborators`: JSON text, UTF-8, base64, PBKDF2 and AES-256-GCM. The
  properties assumed of them are ghost predicates that appear only as
  hypotheses of the lemmas that need them. Randomness (salt and nonce),
  password prompts and the file system are explicit inputs.
 */
module Store {
  import opened Results
  import opened RustText
  import opened Json
  import opened Profiles

  type byte = b: int | 0 <= b < 0x100

  const SaltLen: nat := 16
  const NonceLen: nat := 12
  const KeyLen: nat := 32
  /** PBKDF2-HMAC-SHA-256 iteration count. */
  const Iterations: nat := 100_000

  type Key = k: seq<byte> | |k| == KeyLen witness seq(KeyLen, i => 0)
  type Salt = s: seq<byte> | |s| == SaltLen witness seq(SaltLen, i => 0)
  type NonceBytes = n: seq<byte> | |n| == NonceLen witness seq(NonceLen, i => 0)

  datatype Collaborators = Collaborators(
    /** `serde_json::from_str` up to the JSON value; `None` for malformed text. */
    parseJson: string -> Option<Json>,
    /** `serde_json::to_string`. */
    printJson: Json -> string,
    /** `serde_json::to_string_pretty`. */
    printJsonPretty: Json -> string,
    /** `str::as_bytes`. */
    utf8Bytes: string -> seq<byte>,
    /** `String::from_utf8`. */
    fromUtf8: seq<byte> -> Option<string>,
    /** Standard base64 with padding. */
    base64Encode: seq<byte> -> string,
    base64Decode: string -> Option<seq<byte>>,
    /** PBKDF2-HMAC-SHA-256 (password bytes, salt, iterations) into a 32-byte key. */
    pbkdf2: (seq<byte>, seq<byte>, nat) -> Key,
    /** AES-256-GCM encryption; the tag is appended to the ciphertext. */
    seal: (Key, NonceBytes, seq<byte>) -> Option<seq<byte>>,
    /** AES-256-GCM decryption; `None` is the single opaque authentication error. */
    open: (Key, NonceBytes, seq<byte>) -> Option<seq<byte>>)

  /** What the store relies on: every encoding reads back, and decryption
      under the sealing key and nonce recovers the plaintext. */
  ghost predicate Faithful(env: Collaborators) {
    && (forall j :: env.parseJson(env.printJson(j)) == Some(j))
    && (forall j :: env.parseJson(env.printJsonPretty(j)) == Some(j))
    && (forall s :: env.fromUtf8(env.utf8Bytes(s)) == Some(s))
    && (forall b :: env.base64Decode(env.base64Encode(b)) == Some(b))
    && (forall k, n, p :: env.seal(k, n, p).Some? ==> env.open(k, n, env.seal(k, n, p).value) == Some(p))
  }

  /** Authenticated decryption: a ciphertext sealed under one key does not
      open under another. */
  ghost predicate RejectsForeignKey(env: Collaborators) {
    forall k, k', n, p :: k != k' && env.seal(k, n, p).Some? ==> env.open(k', n, env.seal(k, n, p).value).None?
  }

  /** In-memory configuration: the servers and, once known, the master password. */
  datatype Config = Config(servers: seq<Server>, masterPassword: Option<string>)

  /** `Config::new`. */
  const Empty: Config := Config([], None)

  datatype ConfigError =
    | NoConfigDir
    | NoHomeDir
    | IoFailure
      /** The file matches none of the three shapes. */
    | UnrecognisedFormat(path: string)
    | BadBase64
      /** A nonce of the wrong length; a panic in `Nonce::from_slice`. */
    | MalformedNonce
      /** Wrong password or tampered data, deliberately not told apart. */
    | InvalidPasswordOrCorrupted
    | BadUtf8
    | BadJson
    | PasswordsDoNotMatch
    | EncryptionFailed
    | SshConfigSyntax

  /** The configuration file as the store finds it. */
  datatype FileState = Absent | Unreadable | Readable(content: string)

  /** `<config dir>/ssh-manager/servers.json`. */
  function ConfigPath(configDir: string): string {
    configDir + "/ssh-manager/servers.json"
  }

  function DeriveKey(env: Collaborators, password: string, salt: seq<byte>): Key {
    env.pbkdf2(env.utf8Bytes(password), salt, Iterations)
  }

  // ---------------------------------------------------------------------------
  // Load

  /** `Config::load`. `configDir` is the platform configuration directory,
      `file` the state of the file below it, and `reply` what the password
      prompt returns (`None` when reading the terminal fails). */
  function Load(env: Collaborators, configDir: Option<string>, file: FileState, reply: Option<string>)
    : (r: Result<Config, ConfigError>)
    ensures r.Success? && r.value.masterPassword.Some? ==> r.value.masterPassword == reply
    ensures r.Failure? && r.error.UnrecognisedFormat? ==>
              configDir.Some? && r.error.path == ConfigPath(configDir.value)
    ensures configDir.None? ==> r == Failure(NoConfigDir)
    ensures configDir.Some? && file.Unreadable? ==> r == Failure(IoFailure)
  {
    if configDir.None? then Failure(NoConfigDir)
    else if file.Absent? then Success(Empty)
    else if file.Unreadable? then Failure(IoFailure)
    else
      var doc := env.parseJson(file.content);
      if doc.Some? && DecodeServers(doc.value).Some? then
        Success(Config(DecodeServers(doc.value).value, None))
      else if doc.Some? && DecodeLegacy(doc.value).Some? then
        Success(Config(Migrate(DecodeLegacy(doc.value).value), None))
      else if doc.None? || DecodeEncrypted(doc.value).None? then
        Failure(UnrecognisedFormat(ConfigPath(configDir.value)))
      else if reply.None? then Failure(IoFailure)
      else Unlock(env, DecodeEncrypted(doc.value).value, reply.value)
  }

  /** The encrypted branch of `Config::load` once the password is known. The
      plaintext is read as the current shape only. */
  function Unlock(env: Collaborators, enc: EncryptedConfig, password: string)
    : (r: Result<Config, ConfigError>)
    ensures r.Success? ==> r.value.masterPassword == Some(password)
  {
    var salt := env.base64Decode(enc.salt);
    var nonce := env.base64Decode(enc.nonce);
    var ciphertext := env.base64Decode(enc.ciphertext);
    if salt.None? || nonce.None? || ciphertext.None? then Failure(BadBase64)
    else if |nonce.value| != NonceLen then Failure(MalformedNonce)
    else
      var plaintext := env.open(DeriveKey(env, password, salt.value), nonce.value, ciphertext.value);
      if plaintext.None? then Failure(InvalidPasswordOrCorrupted)
      else
        var text := env.fromUtf8(plaintext.value);
        if text.None? then Failure(BadUtf8)
        else
          var doc := env.parseJson(text.value);
          if doc.Some? && DecodeServers(doc.value).Some? then
            Success(Config(DecodeServers(doc.value).value, Some(password)))
          else Failure(BadJson)
  }

  // ---------------------------------------------------------------------------
  // Save

  /** Whether `create_dir_all` and `fs::write` succeed. */
  datatype SaveFs = SaveFs(createDirSucceeds: bool, writeSucceeds: bool)

  /** The configuration after the call, the text handed to a successful
      `fs::write` (if any), and the call's result. */
  datatype SaveOutcome = SaveOutcome(config: Config, written: Option<string>, result: Result<(), ConfigError>)

  /** `Config::save`. `first` and `second` are what the two password prompts
      return; `salt` and `nonce` are the fresh random values of this call. */
  function Save(
    env: Collaborators, c: Config, configDir: Option<string>, fs: SaveFs,
    first: Option<string>, second: Option<string>, salt: Salt, nonce: NonceBytes)
    : (o: SaveOutcome)
    ensures o.config.servers == c.servers
    ensures o.result.Success? <==> o.written.Some?
    ensures o.result.Success? ==> o.config.masterPassword.Some?
    ensures c.masterPassword.Some? ==> o.config == c
    ensures c.masterPassword.None? && first.Some? && second.Some? && first != second ==>
              o.result.Failure? && o.config == c
    ensures configDir.Some? && fs.createDirSucceeds &&
            c.masterPassword.None? && first.Some? && second.Some? && first != second ==>
              o.result == Failure(PasswordsDoNotMatch)
    ensures configDir.None? ==> o == SaveOutcome(c, None, Failure(NoConfigDir))
    ensures configDir.Some? && !fs.createDirSucceeds ==> o == SaveOutcome(c, None, Failure(IoFailure))
    // the file is written exactly when every step succeeds, with the envelope
    // of the servers under the held password or else the confirmed new one
    ensures o.result.Success? <==>
              && configDir.Some? && fs.createDirSucceeds && fs.writeSucceeds
              && (c.masterPassword.Some? || (first.Some? && first == second))
              && Envelope(env, c.servers, if c.masterPassword.Some? then c.masterPassword.value else first.value,
                          salt, nonce).Some?
    ensures o.result.Success? ==>
              && o.config.masterPassword == (if c.masterPassword.Some? then c.masterPassword else first)
              && o.written.value
                 == env.printJsonPretty(EncodeEncrypted(
                      Envelope(env, c.servers, o.config.masterPassword.value, salt, nonce).value))
  {
    if configDir.None? then SaveOutcome(c, None, Failure(NoConfigDir))
    else if !fs.createDirSucceeds then SaveOutcome(c, None, Failure(IoFailure))
    else if c.masterPassword.None? && first.None? then SaveOutcome(c, None, Failure(IoFailure))
    else if c.masterPassword.None? && second.None? then SaveOutcome(c, None, Failure(IoFailure))
    else if c.masterPassword.None? && first.value != second.value then
      SaveOutcome(c, None, Failure(PasswordsDoNotMatch))
    else
      var password := if c.masterPassword.Some? then c.masterPassword.value else first.value;
      Seal(env, c.(masterPassword := Some(password)), fs.writeSucceeds, salt, nonce)
  }

  /** The encrypting half of `Config::save`, under the held password. */
  function Seal(env: Collaborators, c: Config, writeSucceeds: bool, salt: Salt, nonce: NonceBytes)
    : (o: SaveOutcome)
    requires c.masterPassword.Some?
    ensures o.config == c
    ensures o.result.Success? <==> o.written.Some?
    ensures Envelope(env, c.servers, c.masterPassword.value, salt, nonce).None? ==>
              o.result == Failure(EncryptionFailed)
    ensures Envelope(env, c.servers, c.masterPassword.value, salt, nonce).Some? ==>
              if writeSucceeds
              then o.written == Some(env.printJsonPretty(EncodeEncrypted(
                                  Envelope(env, c.servers, c.masterPassword.value, salt, nonce).value)))
              else o.result == Failure(IoFailure)
  {
    match Envelope(env, c.servers, c.masterPassword.value, salt, nonce)
    case None => SaveOutcome(c, None, Failure(EncryptionFailed))
    case Some(envelope) =>
      if writeSucceeds then SaveOutcome(c, Some(env.printJsonPretty(EncodeEncrypted(envelope))), Success(()))
      else SaveOutcome(c, None, Failure(IoFailure))
  }

  /** The whole server list serialized, encrypted under a key derived from
      the password and the fresh salt, and wrapped with the salt and nonce. */
  function Envelope(env: Collaborators, servers: seq<Server>, password: string, salt: Salt, nonce: NonceBytes)
    : (r: Option<EncryptedConfig>)
    ensures r.Some? ==> r.value.salt == env.base64Encode(salt) && r.value.nonce == env.base64Encode(nonce)
  {
    var key := DeriveKey(env, password, salt);
    var ciphertext :- env.seal(key, nonce, env.utf8Bytes(env.printJson(EncodeServers(servers))));
    Some(EncryptedConfig(env.base64Encode(salt), env.base64Encode(nonce), env.base64Encode(ciphertext)))
  }

  // ---------------------------------------------------------------------------
  // List mutators

  /** `Config::add_server`. */
  function AddServer(c: Config, s: Server): (r: Config)
    ensures |r.servers| == |c.servers| + 1
    ensures r.servers[|c.servers|] == s
    ensures forall i :: 0 <= i < |c.servers| ==> r.servers[i] == c.servers[i]
    ensures r.masterPassword == c.masterPassword
  {
    c.(servers := c.servers + [s])
  }

  /** `Config::remove_server`: bounds-checked, a no-op out of range. */
  function RemoveServer(c: Config, index: nat): (r: Config)
    ensures index >= |c.servers| ==> r == c
    ensures index < |c.servers| ==>
              && |r.servers| == |c.servers| - 1
              && (forall i :: 0 <= i < index ==> r.servers[i] == c.servers[i])
              && (forall i :: index <= i < |r.servers| ==> r.servers[i] == c.servers[i + 1])
    ensures r.masterPassword == c.masterPassword
  {
    if index < |c.servers| then c.(servers := c.servers[..index] + c.servers[index + 1..]) else c
  }

  // ---------------------------------------------------------------------------
  // Properties of the store

  /** No file yet: an empty list and no password, not an error. */
  lemma LoadWithoutFile(env: Collaborators, configDir: string, reply: Option<string>)
    ensures Load(env, Some(configDir), Absent, reply) == Success(Config([], None))
  {
  }

  /** A file in the current shape loads as exactly those servers, with no
      password, and without consulting the prompt: any reply gives the same
      result. */
  lemma LoadCurrent(env: Collaborators, configDir: string, content: string, reply: Option<string>, reply': Option<string>)
    requires env.parseJson(content).Some? && DecodeServers(env.parseJson(content).value).Some?
    ensures Load(env, Some(configDir), Readable(content), reply)
            == Success(Config(DecodeServers(env.parseJson(content).value).value, None))
    ensures Load(env, Some(configDir), Readable(content), reply)
            == Load(env, Some(configDir), Readable(content), reply')
  {
  }

  /** A current file is also a legacy file, yet it loads with the
      authentication and group it records: the cascade prefers the current
      shape. */
  lemma LoadPrefersCurrent(env: Collaborators, configDir: string, content: string, reply: Option<string>)
    requires env.parseJson(content).Some? && DecodeServers(env.parseJson(content).value).Some?
    ensures DecodeLegacy(env.parseJson(content).value).Some?
    ensures Load(env, Some(configDir), Readable(content), reply).Success?
    ensures Load(env, Some(configDir), Readable(content), reply).value.servers
            == DecodeServers(env.parseJson(content).value).value
  {
    CurrentIsAlsoLegacy(env.parseJson(content).value);
  }

  /** A legacy file loads as its records upgraded in order, with no password
      and without consulting the prompt. */
  lemma LoadLegacy(
    env: Collaborators, configDir: string, content: string, reply: Option<string>,
    doc: Json, legacy: seq<LegacyServer>)
    requires env.parseJson(content) == Some(doc)
    requires DecodeServers(doc).None?
    requires DecodeLegacy(doc) == Some(legacy)
    ensures var r := Load(env, Some(configDir), Readable(content), reply);
            && r.Success? && r.value.masterPassword.None?
            && |r.value.servers| == |legacy|
            && forall i :: 0 <= i < |legacy| ==>
                 r.value.servers[i] == Server(legacy[i].name, legacy[i].user, legacy[i].host, legacy[i].port, Agent, "General")
  {
    assert Load(env, Some(configDir), Readable(content), reply) == Success(Config(Migrate(legacy), None));
  }

  /** Text that is in none of the three shapes fails, naming the path. */
  lemma LoadUnrecognised(env: Collaborators, configDir: string, content: string, reply: Option<string>)
    requires var doc := env.parseJson(content);
             doc.None? ||
             (DecodeServers(doc.value).None? && DecodeLegacy(doc.value).None? && DecodeEncrypted(doc.value).None?)
    ensures Load(env, Some(configDir), Readable(content), reply)
            == Failure(UnrecognisedFormat(configDir + "/ssh-manager/servers.json"))
  {
  }

  /** Any file in the encrypted shape only, however its keys are ordered and
      whatever else it holds, is decrypted with the prompt's reply: the load
      is exactly the unlock of the decoded envelope. */
  lemma LoadEncrypted(env: Collaborators, configDir: string, content: string, password: string, enc: EncryptedConfig)
    requires var doc := env.parseJson(content);
             && doc.Some? && DecodeServers(doc.value).None? && DecodeLegacy(doc.value).None?
             && DecodeEncrypted(doc.value) == Some(enc)
    ensures Load(env, Some(configDir), Readable(content), Some(password)) == Unlock(env, enc, password)
  {
  }

  /** An encrypted file whose password prompt fails does not load: the
      prompt's error is returned, and nothing is decrypted. */
  lemma LoadPromptFails(env: Collaborators, configDir: string, content: string, enc: EncryptedConfig)
    requires var doc := env.parseJson(content);
             && doc.Some? && DecodeServers(doc.value).None? && DecodeLegacy(doc.value).None?
             && DecodeEncrypted(doc.value) == Some(enc)
    ensures Load(env, Some(configDir), Readable(content), None) == Failure(IoFailure)
  {
  }

  /** In the encrypted branch a decryption failure yields an error and no
      servers; a decrypted legacy list is rejected, because the plaintext is
      read as the current shape only. */
  lemma UnlockOnlyCurrent(env: Collaborators, enc: EncryptedConfig, password: string)
    ensures var r := Unlock(env, enc, password);
            r.Success? ==>
              exists salt, nonce, ciphertext, plaintext, text ::
                && env.base64Decode(enc.salt) == Some(salt)
                && env.base64Decode(enc.nonce) == Some(nonce)
                && env.base64Decode(enc.ciphertext) == Some(ciphertext)
                && |nonce| == NonceLen
                && env.open(DeriveKey(env, password, salt), nonce, ciphertext) == Some(plaintext)
                && env.fromUtf8(plaintext) == Some(text)
                && env.parseJson(text).Some?
                && DecodeServers(env.parseJson(text).value) == Some(r.value.servers)
  {
    var r := Unlock(env, enc, password);
    if r.Success? {
      var salt := env.base64Decode(enc.salt).value;
      var nonce := env.base64Decode(enc.nonce).value;
      var ciphertext := env.base64Decode(enc.ciphertext).value;
      var plaintext := env.open(DeriveKey(env, password, salt), nonce, ciphertext).value;
      var text := env.fromUtf8(plaintext).value;
      assert env.parseJson(text).Some? && DecodeServers(env.parseJson(text).value) == Some(r.value.servers);
    }
  }

  /** Without a held password, two different prompt entries abort the save
      before anything is written and leave the password unset. */
  lemma SaveMismatch(
    env: Collaborators, c: Config, configDir: string, fs: SaveFs,
    first: string, second: string, salt: Salt, nonce: NonceBytes)
    requires c.masterPassword.None? && fs.createDirSucceeds && first != second
    ensures var o := Save(env, c, Some(configDir), fs, Some(first), Some(second), salt, nonce);
            o.result == Failure(PasswordsDoNotMatch) && o.written.None? && o.config.masterPassword.None?
  {
  }

  /** Matching entries become the held password, whatever happens later. */
  lemma SaveAdoptsPassword(
    env: Collaborators, c: Config, configDir: string, fs: SaveFs,
    entry: string, salt: Salt, nonce: NonceBytes)
    requires c.masterPassword.None? && fs.createDirSucceeds
    ensures Save(env, c, Some(configDir), fs, Some(entry), Some(entry), salt, nonce).config.masterPassword == Some(entry)
  {
  }

  /** With a password held, the prompts are not consulted. */
  lemma SaveHeldPasswordIgnoresPrompts(
    env: Collaborators, c: Config, configDir: Option<string>, fs: SaveFs,
    first: Option<string>, second: Option<string>, first': Option<string>, second': Option<string>,
    salt: Salt, nonce: NonceBytes)
    requires c.masterPassword.Some?
    ensures Save(env, c, configDir, fs, first, second, salt, nonce)
            == Save(env, c, configDir, fs, first', second', salt, nonce)
  {
  }

  /** A written envelope is recognised as the encrypted shape and handed to
      the decrypting branch with the prompt's reply. */
  lemma LoadOfEnvelope(env: Collaborators, configDir: string, envelope: EncryptedConfig, password: string)
    requires Faithful(env)
    ensures Load(env, Some(configDir), Readable(env.printJsonPretty(EncodeEncrypted(envelope))), Some(password))
            == Unlock(env, envelope, password)
  {
    var doc := EncodeEncrypted(envelope);
    assert env.parseJson(env.printJsonPretty(doc)) == Some(doc);
    EncryptedRoundTrip(envelope);
    EncryptedIsNeitherList(doc);
  }

  /** An envelope opens under the password it was sealed with and yields the
      servers it was made from. */
  lemma UnlockEnvelope(env: Collaborators, servers: seq<Server>, password: string, salt: Salt, nonce: NonceBytes)
    requires Faithful(env)
    requires Envelope(env, servers, password, salt, nonce).Some?
    ensures Unlock(env, Envelope(env, servers, password, salt, nonce).value, password)
            == Success(Config(servers, Some(password)))
  {
    var key := DeriveKey(env, password, salt);
    var json := env.printJson(EncodeServers(servers));
    var ciphertext := env.seal(key, nonce, env.utf8Bytes(json)).value;
    assert env.base64Decode(env.base64Encode(salt)) == Some(salt);
    assert env.base64Decode(env.base64Encode(nonce)) == Some(nonce);
    assert env.base64Decode(env.base64Encode(ciphertext)) == Some(ciphertext);
    assert env.open(key, nonce, ciphertext) == Some(env.utf8Bytes(json));
    assert env.fromUtf8(env.utf8Bytes(json)) == Some(json);
    assert env.parseJson(json) == Some(EncodeServers(servers));
    ServersRoundTrip(servers);
  }

  /** An envelope does not open under a password whose derived key differs. */
  lemma UnlockEnvelopeWrongPassword(
    env: Collaborators, servers: seq<Server>, password: string, other: string, salt: Salt, nonce: NonceBytes)
    requires Faithful(env) && RejectsForeignKey(env)
    requires Envelope(env, servers, password, salt, nonce).Some?
    requires DeriveKey(env, other, salt) != DeriveKey(env, password, salt)
    ensures Unlock(env, Envelope(env, servers, password, salt, nonce).value, other)
            == Failure(InvalidPasswordOrCorrupted)
  {
    var key := DeriveKey(env, password, salt);
    var json := env.printJson(EncodeServers(servers));
    var ciphertext := env.seal(key, nonce, env.utf8Bytes(json)).value;
    assert env.base64Decode(env.base64Encode(salt)) == Some(salt);
    assert env.base64Decode(env.base64Encode(nonce)) == Some(nonce);
    assert env.base64Decode(env.base64Encode(ciphertext)) == Some(ciphertext);
    assert env.open(DeriveKey(env, other, salt), nonce, ciphertext).None?;
  }

  /** Round trip: whatever a successful save writes, loading it with the
      password the save used gives back every server, in order, and that
      password. */
  lemma SaveThenLoad(
    env: Collaborators, c: Config, configDir: string, fs: SaveFs,
    first: Option<string>, second: Option<string>, salt: Salt, nonce: NonceBytes)
    requires Faithful(env)
    requires Save(env, c, Some(configDir), fs, first, second, salt, nonce).result.Success?
    ensures var o := Save(env, c, Some(configDir), fs, first, second, salt, nonce);
            Load(env, Some(configDir), Readable(o.written.value), o.config.masterPassword)
            == Success(Config(c.servers, o.config.masterPassword))
  {
    var o := Save(env, c, Some(configDir), fs, first, second, salt, nonce);
    var password := o.config.masterPassword.value;
    assert o == Seal(env, c.(masterPassword := Some(password)), fs.writeSucceeds, salt, nonce);
    var envelope := Envelope(env, c.servers, password, salt, nonce).value;
    LoadOfEnvelope(env, configDir, envelope, password);
    UnlockEnvelope(env, c.servers, password, salt, nonce);
  }

  /** A saved file does not open under a different password whose derived key
      differs: the load fails with the opaque authentication error rather
      than returning other data. */
  lemma LoadWithWrongPassword(
    env: Collaborators, c: Config, configDir: string, fs: SaveFs,
    first: Option<string>, second: Option<string>, salt: Salt, nonce: NonceBytes, other: string)
    requires Faithful(env) && RejectsForeignKey(env)
    requires Save(env, c, Some(configDir), fs, first, second, salt, nonce).result.Success?
    requires var o := Save(env, c, Some(configDir), fs, first, second, salt, nonce);
             DeriveKey(env, other, salt) != DeriveKey(env, o.config.masterPassword.value, salt)
    ensures var o := Save(env, c, Some(configDir), fs, first, second, salt, nonce);
            Load(env, Some(configDir), Readable(o.written.value), Some(other))
            == Failure(InvalidPasswordOrCorrupted)
  {
    var o := Save(env, c, Some(configDir), fs, first, second, salt, nonce);
    var password := o.config.masterPassword.value;
    assert o == Seal(env, c.(masterPassword := Some(password)), fs.writeSucceeds, salt, nonce);
    var envelope := Envelope(env, c.servers, password, salt, nonce).value;
    LoadOfEnvelope(env, configDir, envelope, other);
    UnlockEnvelopeWrongPassword(env, c.servers, password, other, salt, nonce);
  }

  /** Removing the server just added restores the configuration. */
  lemma AddThenRemove(c: Config, s: Server)
    ensures RemoveServer(AddServer(c, s), |c.servers|) == c
  {
    assert (c.servers + [s])[..|c.servers|] == c.servers;
  }

  /** Removal takes out exactly the indexed server: the multiset of servers
      loses that one element and nothing else. */
  lemma RemoveServerMultiset(c: Config, index: nat)
    requires index < |c.servers|
    ensures multiset(RemoveServer(c, index).servers) + multiset{c.servers[index]} == multiset(c.servers)
  {
    var s := c.servers;
    assert s == s[..index] + [s[index]] + s[index + 1..];
  }
}
